=== FILE: README.md ===
# password-policy in Dafny

A model of the core of `mrclay/password-policy`. The library is a PHP builder for weighted password policies. A `Policy` holds weighted rules in insertion order. The rules are:

- `Size`: the byte length;
- `Regex` (with the `CharacterRange` form built on it): a match count;
- `SubPolicy`: a nested policy that must pass.

Each rule scores 0 or 1, and the score is multiplied by its weight. `test` adds up the weighted scores and passes when the total reaches the required score. The required score is explicit, or else the sum of all weights. `toJavaScript` compiles the same policy into a program for the browser that must give the same verdict.

The model has these modules:

- `CharClasses` — bytes, passwords and the seven symbolic class names of `Regex::toCharClass`. It also counts class members in a password, which is what `preg_match_all('/[frag]/')` returns.
- `Constraints` — the `Range` constraint.
- `Text` — PHP string helpers: `sprintf` with one `%s`, `strtolower`, `implode` and string truthiness.
- `Results` — `Result` and `passed()`.
- `Rules` — the rule variants, `WeightedRule` and the policy's state as a value (`PolicyData`). It also holds `Score`, `Description` and the native evaluator `Evaluate`, which is `Policy::test`.
- `RuleFacts` — properties of the rules and of the evaluator.
- `Compiler` — `toJavaScript` as a compiler into an intermediate program (`Program`), plus `Run`, an interpreter that follows the emitted JavaScript stub. It also has the code as written for the one place where the two differ (see Findings).
- `Policies` — value-level functions, one per builder call, that describe what the call does to the policy's state. It also holds the `Policy` and `ConstraintSetter` classes. Their methods change the fields and are proved to match those functions.
- `PolicyFacts` — what the builder calls do to the evaluation, and the `__call` magic-method resolution.
- `Example` — the two policies of `example.php`, built through the classes. The flat one and the nested one are proved to accept exactly the same passwords. The four sample passwords get the verdicts the example asserts.

Regular expressions given by the caller are evaluated by a `Matcher` parameter: pattern text and password in, match count out. Every property holds for any matcher. A bracket over one of the seven class fragments is counted concretely.

## Model

| member | source | states |
|---|---|---|
| CharClasses.ClassNamed | lib/PasswordPolicy/Rules/Regex.php:47-65 | the class found has exactly the name looked up; no class is found only when no class has that name |
| CharClasses.ClassOfFragment | lib/PasswordPolicy/Rules/Regex.php:47-65 | the inverse table, from pattern fragment to class: a found class has that fragment, and none is found only when no class has it |
| CharClasses.ToCharClass | lib/PasswordPolicy/Rules/Regex.php:47-65 | the label returned is non-empty exactly when the name is one of the seven class names |
| CharClasses.ToCharClassTable | lib/PasswordPolicy/Rules/Regex.php:47-65 | a class name maps to that class's fragment and label; any other string comes back unchanged as a literal fragment with an empty label |
| CharClasses.NameTables | lib/PasswordPolicy/Rules/Regex.php:47-65 | each class's name and fragment lead back to the same class, and `toCharClass` of its name gives its fragment and label |
| CharClasses.MethodNameShape | lib/PasswordPolicy/Policy.php:11-17 | every class name is lower-case with at least two letters, and its magic method is `contains` followed by the capitalised name |
| CharClasses.LabelShape | lib/PasswordPolicy/Rules/Regex.php:47-65 | every class label is truthy and has no `%`, so a builder uses it when no description is given and `sprintf` prints it unchanged |
| CharClasses.CountIn | lib/PasswordPolicy/Rules/Regex.php:20-24 | the number of class matches never exceeds the password's length |
| CharClasses.CountInPositive | lib/PasswordPolicy/Rules/Regex.php:20-24 | the class has at least one match exactly when some byte of the password lies in it |
| CharClasses.CountInPrefix | lib/PasswordPolicy/Rules/Regex.php:20-24 | a prefix of the password never has more matches than the whole password |
| CharClasses.CountInTwo | lib/PasswordPolicy/Rules/Regex.php:20-24 | two distinct positions holding class bytes give at least two matches |
| Text.ToLower | lib/PasswordPolicy/Policy.php:234 | `strtolower` keeps the length, leaves no upper-case letter, keeps every other character, and turns each upper-case letter into the lower-case letter it capitalises |
| Text.NatToString | lib/PasswordPolicy/Rules/SubPolicy.php:43-45 | the interpolated number is a non-empty string of decimal digits, without a leading zero unless it is 0, whose decimal value (`Text.DecimalValue`) is the number |
| Text.JoinSnoc | lib/PasswordPolicy/Rules/SubPolicy.php:39-46 | `implode` of one more part is the previous result, the separator and the new part |
| Text.FormatWithoutPercent | lib/PasswordPolicy/Rules/Regex.php:15-18 | a template without `%` is formatted to itself, whatever the argument |
| Text.SprintfWithoutPercent | lib/PasswordPolicy/Rules/Regex.php:15-18 | `sprintf` leaves a description without `%` unchanged |
| Text.SprintfSubstitutes | lib/PasswordPolicy/Rules/Regex.php:15-18 | one `%s` between `%`-free text is replaced by the argument and the text around it is kept |
| Constraints.Range.Message | lib/PasswordPolicy/Rules/Base.php:16-21 | a constraint's message is never empty and contains no `%` |
| Results.PassedIsMonotone | lib/PasswordPolicy/Result.php:25-27 | `passed()` (`Result.Passed`): for the same required score, a higher score never turns a pass into a failure |
| Rules.Rule.WithConstraint | lib/PasswordPolicy/Rules/Base.php:23-25 | setting a constraint installs exactly that constraint; the variant, pattern and template stay the same |
| Rules.Score | lib/PasswordPolicy/Rules/Regex.php:20-24 | every rule's score is binary: 0 or 1; the same function also models `Size::score` (Rules/Size.php:12-15) and `SubPolicy::score` (Rules/SubPolicy.php:26-28) |
| Rules.BaseDescription | lib/PasswordPolicy/Rules/Base.php:16-21 | the base description is empty exactly when the rule has no constraint, and never contains `%` |
| Rules.Evaluate | lib/PasswordPolicy/Policy.php:284-301 | `test` gives one message per rule, and the result's required score is `getRequiredScore()` |
| RuleFacts.UnconstrainedIsAtLeastOne | lib/PasswordPolicy/Rules/Base.php:34-39 | `testConstraint` (`Rules.TestConstraint`): with no constraint, the count test is the same as the constraint "at least 1" |
| RuleFacts.LengthDescription | lib/PasswordPolicy/Rules/Size.php:7-10 | `getDescription` of a `Size` rule (`Rules.Description`): `length(min)` is described as "Expecting a password length of at least min characters"; an unconstrained `Size` leaves an empty gap in that sentence |
| RuleFacts.RegexDescription | lib/PasswordPolicy/Rules/Regex.php:15-18 | `getDescription` of a `Regex` rule (`Rules.Description`) is its template with the constraint's message spliced in at `%s`; a template without `%` is the description unchanged, with or without a constraint |
| RuleFacts.DefaultRequiresEveryRule | lib/PasswordPolicy/Policy.php:39-54 | without an explicit required score and with positive weights, a password passes exactly when every rule scores 1 |
| RuleFacts.SizeScore | lib/PasswordPolicy/Rules/Size.php:12-15 | `Size` scores 1 exactly when the byte length satisfies the constraint; with no constraint, exactly when the password is non-empty |
| RuleFacts.RegexScoreWithoutConstraint | lib/PasswordPolicy/Rules/Regex.php:20-24 | with no constraint, a `Regex` rule scores 1 exactly when its pattern matches at least once |
| RuleFacts.ScoreIsWeightedSum | lib/PasswordPolicy/Policy.php:284-301 | the total score equals the sum over all rules of score times weight |
| RuleFacts.ReorderingKeepsVerdict | lib/PasswordPolicy/Policy.php:284-301 | two policies with the same rules in any order and the same explicit score have the same score, the same required score and the same verdict |
| RuleFacts.SubPolicyAcceptedDescription | lib/PasswordPolicy/Rules/SubPolicy.php:34-37 | a sub-policy whose required score is at most 0 says it always accepts, whatever its weights |
| RuleFacts.SubPolicyAlwaysAccepted | lib/PasswordPolicy/Rules/SubPolicy.php:33-37 | a sub-policy with non-negative weights and a required score of at most 0 scores 1 and says it always accepts |
| RuleFacts.SubPolicyScore | lib/PasswordPolicy/Rules/SubPolicy.php:26-28 | a sub-policy scores 1 exactly when the nested policy's score reaches its required score |
| RuleFacts.SubPolicyDescription | lib/PasswordPolicy/Rules/SubPolicy.php:33-47 | `getDescription` of a sub-policy rule (`Rules.Description`): a sub-policy that requires points names the required score and lists every nested rule as "desc (for W points)" (`Rules.Summaries`, `Rules.Summary`) in insertion order |
| Compiler.BaseCompiled | lib/PasswordPolicy/Rules/Base.php:27-32 | the default compiled rule is described as "Not Implemented" and scores 0 on every password |
| Compiler.CompileWeightedRule | lib/PasswordPolicy/WeightedRule.php:50-55 | a compiled weighted rule keeps its weight |
| Compiler.Compile | lib/PasswordPolicy/Policy.php:246-278 | the program has one compiled rule per rule and bakes in the current required score |
| Compiler.CompileRuleCorrect | lib/PasswordPolicy/Rules/Regex.php:26-45 | a compiled rule (`Compiler.CompileRule`, also for Rules/Size.php:17-25 and Rules/SubPolicy.php:49-57) has the rule's description and scores every byte password exactly as the rule does under the model's interpreter; this stands for the browser on ASCII passwords only |
| Compiler.CompileCorrect | lib/PasswordPolicy/Policy.php:246-278 | running the compiled program (`Compiler.Run` and `Compiler.RunScore`, the stub of lines 251-276) on any byte password gives the verdict, required score, score and messages of `test`; the model's interpreter works on bytes, so this stands for the browser on ASCII passwords only |
| Compiler.CompileRuleAsWritten | lib/PasswordPolicy/Rules/Size.php:17-25 | as written, a `Size` rule fails to compile exactly when it has no constraint, a `Regex` rule always compiles, and a compiled rule carries the rule's description |
| Compiler.CompileAsWritten | lib/PasswordPolicy/Policy.php:246-250 | as written, a policy fails to compile exactly when one of its rules does; otherwise the program keeps every weight and the current required score |
| Compiler.CompileRuleAsWrittenAgrees | lib/PasswordPolicy/Rules/Size.php:17-25 | the code as written compiles a rule exactly when every `Size` inside it has a constraint, and then produces the corrected compiler's output |
| Compiler.CompileAsWrittenAgrees | lib/PasswordPolicy/Policy.php:246-250 | the code as written compiles a policy exactly when every `Size` at any depth has a constraint, and then agrees with `Compile` |
| Compiler.UnconstrainedSizeCounterexample | lib/PasswordPolicy/Rules/Size.php:17-25 | a policy with one unconstrained `Size` rule passes exactly the non-empty passwords natively; the code as written cannot compile it, and the corrected program agrees with the native verdict |
| Policies.AtLeastRange | lib/PasswordPolicy/ConstraintSetter.php:35-37 | the range accepts exactly the counts of at least `min` |
| Policies.AtMostRange | lib/PasswordPolicy/ConstraintSetter.php:45-47 | the range accepts exactly the counts of at most `max` |
| Policies.BetweenRange | lib/PasswordPolicy/ConstraintSetter.php:56-58 | the range accepts exactly the counts from `min` to `max` inclusive |
| Policies.NeverRange | lib/PasswordPolicy/ConstraintSetter.php:65-67 | the range accepts only a count of 0 |
| Policies.ChooseDescription | lib/PasswordPolicy/Policy.php:95-97 | a truthy caller description always wins; the class label is used only when the caller's is falsy and the label is truthy |
| Policies.ResolveMagic | lib/PasswordPolicy/Policy.php:232-241 | a resolved name starts with `contains` and an upper-case letter, and resolves to the lower-cased rest, which is a class name |
| Policies.ContainsRule | lib/PasswordPolicy/Policy.php:90-101 | `contains` builds a bracket pattern over the class fragment (or the literal characters), uses the class label unless a truthy description is given, and requires at least one match |
| Policies.LengthRule | lib/PasswordPolicy/Policy.php:110-114 | `length` scores 1 exactly when the byte length is at least `min` and at most `max` (no upper bound by default) |
| Policies.EndsWithRule | lib/PasswordPolicy/Policy.php:123-132 | `endsWith` builds a trailing bracket pattern described as "Ends with" plus the chosen description, and requires at least one match |
| Policies.StartsWithRule | lib/PasswordPolicy/Policy.php:141-150 | `startsWith` builds a leading bracket pattern described as "Starts with" plus the chosen description, and requires at least one match |
| Policies.NotMatchRule | lib/PasswordPolicy/Policy.php:159-163 | `notMatch` scores 1 exactly when the caller's pattern does not match |
| Policies.MatchRule | lib/PasswordPolicy/Policy.php:172-176 | `match` scores 1 exactly when the caller's pattern matches at least once |
| Policies.Appended | lib/PasswordPolicy/Policy.php:194-197 | `addRule` appends the rule at weight 1 after the existing rules and keeps the required score |
| Policies.WithRequiredScore | lib/PasswordPolicy/Policy.php:62-69 | `setRequiredScore` keeps the rules and stores the given score; for `null` it stores the sum of the current weights |
| Policies.WithMissedPoints | lib/PasswordPolicy/Policy.php:77-81 | `allowMissedPoints` keeps the rules and requires the total weight minus the points |
| Policies.LastWeightedRule | lib/PasswordPolicy/Policy.php:306-311 | there is no last rule exactly when the policy is empty; otherwise it is the most recently appended rule |
| Policies.Reweighted | lib/PasswordPolicy/Policy.php:206-213 | `setWeight` fails with NoRuleSet exactly on an empty policy; otherwise only the last rule's weight changes |
| Policies.ConstraintTarget | lib/PasswordPolicy/Policy.php:219-230 | `constrain` fails with NoRuleSet on an empty policy and with NoConstraints when the last rule is a sub-policy; when the last rule accepts constraints it succeeds and binds to that rule, and it binds to nothing else |
| Policies.Constrained | lib/PasswordPolicy/ConstraintSetter.php:24-27 | applying a constraint replaces only the bound rule's constraint; every other rule, every weight, the length and the required score stay |
| Policies.Policy.constructor | lib/PasswordPolicy/Policy.php:24 | a new policy has no rules and no explicit required score |
| Policies.Policy.GetRequiredScore | lib/PasswordPolicy/Policy.php:45-54 | the loop returns the explicit required score, or else the sum of the current weights |
| Policies.Policy.SetRequiredScore | lib/PasswordPolicy/Policy.php:62-69 | the new state is `WithRequiredScore` of the old one, and the policy itself is returned |
| Policies.Policy.AllowMissedPoints | lib/PasswordPolicy/Policy.php:77-81 | the new state is `WithMissedPoints` of the old one |
| Policies.Policy.Contains | lib/PasswordPolicy/Policy.php:90-101 | the new state is the old one with `ContainsRule` appended |
| Policies.Policy.Length | lib/PasswordPolicy/Policy.php:110-114 | the new state is the old one with `LengthRule` appended |
| Policies.Policy.EndsWith | lib/PasswordPolicy/Policy.php:123-132 | the new state is the old one with `EndsWithRule` appended |
| Policies.Policy.StartsWith | lib/PasswordPolicy/Policy.php:141-150 | the new state is the old one with `StartsWithRule` appended |
| Policies.Policy.NotMatch | lib/PasswordPolicy/Policy.php:159-163 | the new state is the old one with `NotMatchRule` appended |
| Policies.Policy.Match | lib/PasswordPolicy/Policy.php:172-176 | the new state is the old one with `MatchRule` appended |
| Policies.Policy.AddPolicyAsRule | lib/PasswordPolicy/Policy.php:184-186 | the new state is the old one with a sub-policy rule of the other policy's state appended |
| Policies.Policy.AddRule | lib/PasswordPolicy/Policy.php:194-197 | the new state is `Appended` of the old one |
| Policies.Policy.SetWeight | lib/PasswordPolicy/Policy.php:206-213 | on success the state becomes `Reweighted` of the old one; on NoRuleSet the state is unchanged and the exception is returned |
| Policies.Policy.Constrain | lib/PasswordPolicy/Policy.php:219-230 | returns a setter bound to this policy at the index `ConstraintTarget` names, or the exception it names |
| Policies.Policy.Call | lib/PasswordPolicy/Policy.php:232-241 | a resolved `contains<Class>` name appends `contains` of the lower-cased class name; any other name throws BadMethodCall and leaves the state unchanged |
| Policies.Policy.ToJavaScript | lib/PasswordPolicy/Policy.php:246-278 | the loop builds `Compile` of the state, whose run agrees with `test` on every password |
| Policies.Policy.Test | lib/PasswordPolicy/Policy.php:284-301 | the loop's result is `Evaluate` of the policy's state |
| Policies.ConstraintSetter.constructor | lib/PasswordPolicy/ConstraintSetter.php:19-22 | the setter is bound to the given policy and rule |
| Policies.ConstraintSetter.ApplyConstraint | lib/PasswordPolicy/ConstraintSetter.php:24-27 | the policy's new state is `Constrained` of the old one at the bound rule, the binding stays valid, and the policy is returned |
| Policies.ConstraintSetter.AtLeast | lib/PasswordPolicy/ConstraintSetter.php:35-37 | the bound rule gets `AtLeastRange(min)` |
| Policies.ConstraintSetter.AtMost | lib/PasswordPolicy/ConstraintSetter.php:45-47 | the bound rule gets `AtMostRange(max)` |
| Policies.ConstraintSetter.Between | lib/PasswordPolicy/ConstraintSetter.php:56-58 | the bound rule gets `BetweenRange(min, max)` |
| Policies.ConstraintSetter.Never | lib/PasswordPolicy/ConstraintSetter.php:65-67 | the bound rule gets `NeverRange()` |
| PolicyFacts.RequiredScoreAfterAppend | lib/PasswordPolicy/Policy.php:45-54 | appending a rule raises the default required score by 1 and leaves an explicit one as it was |
| PolicyFacts.MissedPointsRebase | lib/PasswordPolicy/Policy.php:77-81 | `allowMissedPoints` rebases on the default, so a second call replaces the first rather than subtracting twice |
| PolicyFacts.WeightAfterAppend | lib/PasswordPolicy/Policy.php:206-213 | `->rule()->setWeight(w)` has the same effect as appending the rule with weight `w` |
| PolicyFacts.ConstrainAfterAppend | lib/PasswordPolicy/Policy.php:219-230 | right after a rule is appended, `constrain()` binds to it, and constraining it is the same as appending the constrained rule |
| PolicyFacts.EvaluateAppended | lib/PasswordPolicy/Policy.php:284-301 | appending a rule adds exactly one message at the end, keeps the earlier ones, and adds the new rule's score to the total |
| PolicyFacts.EvaluateReweighted | lib/PasswordPolicy/WeightedRule.php:29-31 | reweighting the last rule changes the total only by that rule's old and new weighted score |
| PolicyFacts.EvaluateConstrained | lib/PasswordPolicy/ConstraintSetter.php:24-27 | constraining a rule changes no other rule's message and not the required score |
| PolicyFacts.ContainsClassScore | lib/PasswordPolicy/Policy.php:90-101 | `contains(<class name>)` scores 1 exactly when some byte of the password lies in the class |
| PolicyFacts.ClassRuleDescriptions | lib/PasswordPolicy/Policy.php:90-150 | with no truthy description, `contains`, `startsWith` and `endsWith` of a class are described by the class label, the last two with their prefix |
| PolicyFacts.CapitalizedIsDetermined | lib/PasswordPolicy/Policy.php:233-234 | a capitalised word is determined by its lower-cased form |
| PolicyFacts.ResolveMethodName | lib/PasswordPolicy/Policy.php:232-241 | each `contains<Class>` method name resolves to its lower-case class name |
| PolicyFacts.ResolvedIsMethodName | lib/PasswordPolicy/Policy.php:232-241 | every name that resolves is the method name of the class it resolves to |
| PolicyFacts.ResolveMagicExact | lib/PasswordPolicy/Policy.php:232-241 | `__call` accepts exactly the seven `contains<Class>` names and resolves each to its class name |
| Example.FlatWeights | example.php:7-18 | the flat policy's weights add up to ten |
| Example.ClassRuleScore | example.php:10-12 | a `contains<Class>()` rule scores 1 exactly when the class occurs in the password |
| Example.ConstrainedClassRuleScore | example.php:15 | a constrained class rule scores 1 exactly when the number of class bytes lies in the range |
| Example.FlatContributions | example.php:7-18 | the flat rules contribute the weights of exactly the rules the password satisfies |
| Example.FlatVerdict | example.php:7-18 | the flat policy (nine of ten points required) accepts exactly the passwords of `ExampleAccepts` |
| Example.ShortWithoutSymbols | example.php:20 | `Ax4k45` is rejected: no symbols and shorter than ten |
| Example.ShortWithTwoSymbols | example.php:21 | `Ax#k$5` is accepted: two symbols |
| Example.LongWithoutSymbols | example.php:22 | `Ax4k45huig` is accepted: ten characters long |
| Example.LongWithoutUppercase | example.php:23 | `gx4k45huig` is rejected: no upper-case letter |
| Example.RequirementsVerdict | example.php:27-31 | the requirements sub-policy passes exactly when the password has six bytes and an upper-case letter, a lower-case letter and a digit |
| Example.SubstitutionsVerdict | example.php:32-35 | the substitutions sub-policy passes exactly when the password has two symbols or ten bytes |
| Example.NestedVerdict | example.php:36-38 | the policy of two sub-policies accepts exactly the passwords of `ExampleAccepts` |
| Example.ExamplesAgree | example.php:7-38 | the flat policy and the nested policy give the same verdict on every password |
| Example.AddWeightedClass | example.php:10-12 | `->contains<Class>()->setWeight(w)` appends the class rule with weight `w` |
| Example.AddClassAtLeast | example.php:15 | `->contains<Class>()->constrain()->atLeast(n)` appends the class rule constrained to at least `n` |
| Example.AddWeightedLength | example.php:9 | `->length(n)->setWeight(w)` appends the length rule with weight `w` |
| Example.AddClass | example.php:29-31 | `->contains<Class>()` appends the class rule |
| Example.BuildFlat | example.php:7-18 | the builder chain of the flat policy produces `FlatPolicy` |
| Example.BuildRequirements | example.php:27-31 | the builder chain of the requirements policy produces `RequirementsPolicy` |
| Example.BuildSubstitutions | example.php:32-35 | the builder chain of the substitutions policy produces `SubstitutionsPolicy` |
| Example.BuildNested | example.php:36-38 | adding the two policies as rules produces `NestedPolicy` |
| Example.TestFlat | example.php:20-23 | `test` on the flat policy passes exactly the passwords of `ExampleAccepts` |

## Left out

- The `Range` class (`Range.php`) is not part of this model. `Constraints.Range.Check` is taken as the inclusive bound `min <= n <= max`. The `PHP_INT_MAX` upper bound is `None`. No `min <= max` check is modelled.
- Constraints.Range.Message: the wording of `getMessage` is assumed, not taken from the source: "at least N", "at most N", "between N and M", "exactly N", "none". Two contracts hold only for this assumed wording: `Rules.BaseDescription` ("empty exactly when there is no constraint" needs a non-empty message) and the first ensures of `RuleFacts.LengthDescription` ("at least N").
- Compiler.RunScore: the model's interpreter of the compiled program works on the same byte string as `test`. It measures a `Size` rule with the byte length and counts class brackets byte by byte. The emitted stub uses `p.length` (Rules/Size.php:21) and JavaScript regexes (Rules/Regex.php:30-35), which work on UTF-16 code units. So `Compiler.CompileRuleCorrect` and `Compiler.CompileCorrect` say the browser agrees with `test` only for ASCII passwords. For example, with `length(2)` the password `é` passes `test` (`strlen` is 2) but fails in the browser (`p.length` is 1).
- The `CharacterRange` class is not part of this model. `contains` is modelled as a `Regex` rule with the bracket pattern `/[chars]/`, as `Policy.php:98` uses it.
- PCRE and the browser's regex engine are not modelled. Every pattern goes through the `Matcher` parameter, except a bracket over one of the seven class fragments, which is counted byte by byte. Differences between the two engines on the same pattern are not captured.
- The JavaScript source text is not modelled: the string templates, `json_encode` and the whitespace collapsing of `preg_replace`. `toJavaScript` is modelled as the `Compiler.Program` it describes, with `Compiler.Run` standing for the emitted stub.
- Policies.Policy.AddPolicyAsRule: takes a snapshot of the nested policy's state. PHP keeps a reference, so later changes to the nested policy object are seen by the outer one in PHP but not in the model. In particular, `$p->addPolicyAsRule($p)` makes `$p->test()` and `$p->toJavaScript()` recurse without end in PHP (Rules/SubPolicy.php:27 calls back into Policy.php:290, and Rules/SubPolicy.php:53 into `toJavaScript`). So does the sub-policy rule's own `getDescription` (Rules/SubPolicy.php:41). The model instead stores the state from before the call, so these return a result where PHP never returns.
- `ConstraintSetter` is bound by position in the policy's list, not by rule object identity. The same rule object shared between two policies, or added twice, is not modelled.
- `WeightedRule::setWeight` and `Base::setConstraint` change objects in place. They are modelled as replacing the list element.
- Weights and required scores are integers. PHP also allows floats, and float arithmetic is not modelled.
- `getWeightedRules`, `WeightedRule::getRule`/`getWeight` and the `Result` getters are the fields of the datatypes.
- Text.Sprintf: handles only the first `%s` and `%%`, and keeps everything else as text. The template is the caller's own description for `contains`, `startsWith`, `endsWith`, `match` and `notMatch` (Policy.php:95-98, 128, 146, 160, 173; Rules/Regex.php:17). PHP's `sprintf` fails when the template has more conversions than the one argument, or a trailing `%`: PHP 7 warns and returns false, PHP 8 throws `ArgumentCountError` or `ValueError`. Then `getDescription`, `test` and `toJavaScript` fail in PHP. The model returns the text with those characters kept, e.g. `"x and %s"` for the template `"%s and %s"`. An unknown conversion character, as in `"Save 100%!"` or `"%y"`, throws `ValueError` in PHP 8; PHP 7 drops it and uses up the argument, so `"Save 100%!"` gives `"Save 100"`. A repeated positional `%1$s` is filled with the message each time. The model keeps all of these as text. A lone conversion other than `%s` is formatted by PHP with the message as its argument (`%d` prints 0, `%5s` pads, `%1$s` places it). The model keeps such a conversion as text, e.g. `"%d"` stays `"%d"`.
- Exception messages are not modelled, only the exception kind: `NoRuleSet`, `NoConstraints` or `BadMethodCall`.
- Policies.ResolveMagic: PCRE's `$` also matches before a final newline, so `__call("containsDigit\n")` resolves in PHP. The model rejects it.
- `Rule.php` is the rule interface, represented by the `Rules.Rule` datatype. `Rules/Blacklist.php` is a class in the Rules namespace that does not implement `Rule`, so no policy can hold it; it is not part of this model.
- `example.php`'s console output and its `toJavaScript` block are not modelled beyond `Compiler.CompileCorrect`. That lemma gives the compiled policy the same verdicts as `test` on ASCII passwords only (see `Compiler.RunScore` above). For example, `Abcd1é` passes `test` on the flat policy (7 bytes, 2 symbol bytes, 9 points) but scores 8 in a browser (6 code units, 1 symbol).

## Findings

| source | as written | input that shows it | evidently intended | confidence | as-written member | corrected member |
|---|---|---|---|---|---|---|
| lib/PasswordPolicy/Rules/Size.php:17-25 | `toJavaScript` calls `$this->constraint->toJavaScript()` without checking for a missing constraint | `(new Policy())->addRule(new Size())->toJavaScript()`: the constraint is `null`, so compilation fails, although `test` scores that rule normally (any non-empty password) | an unconstrained `Size` compiles to a non-empty-length test, as `Base::testConstraint` scores it and as `Regex::toJavaScript` handles its own missing constraint | not executed | Compiler.CompileAsWritten, Compiler.UnconstrainedSizeCounterexample | Compiler.Compile, Compiler.CompileCorrect |

=== FILE: char_classes.dfy ===
/**
 * Passwords as PHP sees them (byte strings) and the fixed table of symbolic
 * character-class names of `Regex::toCharClass`.
 */
module CharClasses {
  import opened Wrappers
  import opened Text

  newtype byte = x: int | 0 <= x < 256

  /** A password is the raw byte string PHP receives; `strlen` is its length. */
  type Password = seq<byte>

  /** The seven symbolic class names. */
  datatype CharClass = Letter | Lowercase | Uppercase | Alnum | Digit | Symbol | Null {

    /** The name accepted by `contains` and `toCharClass`. */
    function Name(): string
    {
      match this
      case Letter => "letter"
      case Lowercase => "lowercase"
      case Uppercase => "uppercase"
      case Alnum => "alnum"
      case Digit => "digit"
      case Symbol => "symbol"
      case Null => "null"
    }

    /** The bracket-expression body the name stands for (`\0` is two characters). */
    function Fragment(): string
    {
      match this
      case Letter => "a-zA-Z"
      case Lowercase => "a-z"
      case Uppercase => "A-Z"
      case Alnum => "a-zA-Z0-9"
      case Digit => "0-9"
      case Symbol => "^a-zA-Z0-9"
      case Null => "\\0"
    }

    /** The default description of a rule built from the name. */
    function Label(): string
    {
      match this
      case Alnum => "alpha numeric"
      case _ => Name()
    }

    /** The magic method that `Policy::__call` resolves to this class. */
    function MethodName(): string
    {
      match this
      case Letter => "containsLetter"
      case Lowercase => "containsLowercase"
      case Uppercase => "containsUppercase"
      case Alnum => "containsAlnum"
      case Digit => "containsDigit"
      case Symbol => "containsSymbol"
      case Null => "containsNull"
    }

    /** Whether byte `b` lies in the bracket expression `[Fragment()]`. */
    predicate Contains(b: byte)
    {
      var lower := 97 <= b <= 122;
      var upper := 65 <= b <= 90;
      var digit := 48 <= b <= 57;
      match this
      case Letter => lower || upper
      case Lowercase => lower
      case Uppercase => upper
      case Alnum => lower || upper || digit
      case Digit => digit
      case Symbol => !(lower || upper || digit)
      case Null => b == 0
    }
  }

  /** The class whose name is `name`, if any. */
  function ClassNamed(name: string): (c: Option<CharClass>)
    ensures c.Some? ==> c.value.Name() == name
    ensures c.None? ==> forall k: CharClass :: k.Name() != name
  {
    if name == "letter" then Some(Letter)
    else if name == "lowercase" then Some(Lowercase)
    else if name == "uppercase" then Some(Uppercase)
    else if name == "alnum" then Some(Alnum)
    else if name == "digit" then Some(Digit)
    else if name == "symbol" then Some(Symbol)
    else if name == "null" then Some(Null)
    else None
  }

  /** The class whose fragment is `fragment`, if any. */
  function ClassOfFragment(fragment: string): (c: Option<CharClass>)
    ensures c.Some? ==> c.value.Fragment() == fragment
    ensures c.None? ==> forall k: CharClass :: k.Fragment() != fragment
  {
    if fragment == "a-zA-Z" then Some(Letter)
    else if fragment == "a-z" then Some(Lowercase)
    else if fragment == "A-Z" then Some(Uppercase)
    else if fragment == "a-zA-Z0-9" then Some(Alnum)
    else if fragment == "0-9" then Some(Digit)
    else if fragment == "^a-zA-Z0-9" then Some(Symbol)
    else if fragment == "\\0" then Some(Null)
    else None
  }

  /**
   * `Regex::toCharClass($desc)`: a class name maps to its (fragment, label)
   * pair; anything else is returned as a literal fragment with an empty label.
   */
  function ToCharClass(name: string): (r: (string, string))
    ensures r.1 != "" <==> ClassNamed(name).Some?
  {
    match ClassNamed(name)
    case Some(c) => (c.Fragment(), c.Label())
    case None => (name, "")
  }

  /** Each class's name and fragment lead back to it, and `toCharClass` maps its name to its fragment and label. */
  lemma NameTables(c: CharClass)
    ensures ClassNamed(c.Name()) == Some(c)
    ensures ClassOfFragment(c.Fragment()) == Some(c)
    ensures ToCharClass(c.Name()) == (c.Fragment(), c.Label())
  {
  }

  /** Every class name is lower-case, and its method name capitalises it after `contains`. */
  lemma MethodNameShape(c: CharClass)
    ensures |c.Name()| >= 2
    ensures forall i :: 0 <= i < |c.Name()| ==> IsLower(c.Name()[i])
    ensures c.MethodName() == "contains" + [UpperChar(c.Name()[0])] + c.Name()[1..]
  {
    var name := c.Name();
    match c
    case Letter => assert name == "letter";
    case Lowercase => assert name == "lowercase";
    case Uppercase => assert name == "uppercase";
    case Alnum => assert name == "alnum";
    case Digit => assert name == "digit";
    case Symbol => assert name == "symbol";
    case Null => assert name == "null";
  }

  /** Every label is truthy and has no `%`, so `sprintf` prints it unchanged. */
  lemma LabelShape(c: CharClass)
    ensures Truthy(c.Label()) && '%' !in c.Label()
  {
    match c
    case Letter => assert c.Label() == "letter";
    case Lowercase => assert c.Label() == "lowercase";
    case Uppercase => assert c.Label() == "uppercase";
    case Alnum => assert c.Label() == "alpha numeric";
    case Digit => assert c.Label() == "digit";
    case Symbol => assert c.Label() == "symbol";
    case Null => assert c.Label() == "null";
  }

  /** The table `toCharClass` consults: each class name, and everything else passed through. */
  lemma ToCharClassTable(name: string)
    ensures forall c: CharClass :: name == c.Name() ==> ToCharClass(name) == (c.Fragment(), c.Label())
    ensures (forall c: CharClass :: name != c.Name()) ==> ToCharClass(name) == (name, "")
  {
  }

  /** The number of bytes of `pw` in class `c`: `preg_match_all('/[frag]/', pw)`. */
  function CountIn(c: CharClass, pw: Password): (n: nat)
    ensures n <= |pw|
  {
    if pw == [] then 0
    else CountIn(c, pw[..|pw| - 1]) + (if c.Contains(pw[|pw| - 1]) then 1 else 0)
  }

  /** There is a match exactly when some byte of the password is in the class. */
  lemma {:induction false} CountInPositive(c: CharClass, pw: Password)
    ensures CountIn(c, pw) > 0 <==> exists i :: 0 <= i < |pw| && c.Contains(pw[i])
    decreases |pw|
  {
    if pw != [] {
      var n := |pw| - 1;
      CountInPositive(c, pw[..n]);
      if exists i :: 0 <= i < n && c.Contains(pw[..n][i]) {
        var i :| 0 <= i < n && c.Contains(pw[..n][i]);
        assert c.Contains(pw[i]);
      }
      if exists i :: 0 <= i < |pw| && c.Contains(pw[i]) {
        var i :| 0 <= i < |pw| && c.Contains(pw[i]);
        if i < n {
          assert c.Contains(pw[..n][i]);
        }
      }
    }
  }

  /** Counting a prefix never finds more than counting the whole password. */
  lemma {:induction false} CountInPrefix(c: CharClass, pw: Password, k: nat)
    requires k <= |pw|
    ensures CountIn(c, pw[..k]) <= CountIn(c, pw)
    decreases |pw|
  {
    if k < |pw| {
      var n := |pw| - 1;
      assert pw[..n][..k] == pw[..k];
      CountInPrefix(c, pw[..n], k);
    } else {
      assert pw[..k] == pw;
    }
  }

  /** Two distinct positions in the class make at least two matches. */
  lemma CountInTwo(c: CharClass, pw: Password, i: nat, j: nat)
    requires i < j < |pw| && c.Contains(pw[i]) && c.Contains(pw[j])
    ensures CountIn(c, pw) >= 2
  {
    var prefix := pw[..j];
    assert c.Contains(prefix[i]);
    CountInPositive(c, prefix);
    assert pw[..j + 1][..j] == prefix;
    CountInPrefix(c, pw, j + 1);
  }

  /** The bytes of an ASCII string literal, for writing concrete passwords. */
  function Bytes(s: string): (pw: Password)
    requires forall i :: 0 <= i < |s| ==> s[i] as int < 256
    ensures |pw| == |s|
    ensures forall i :: 0 <= i < |s| ==> pw[i] as int == s[i] as int
  {
    seq(|s|, i requires 0 <= i < |s| && s[i] as int < 256 => s[i] as int as byte)
  }
}

=== FILE: compiler.dfy ===
/**
 * `toJavaScript` as a compiler into an intermediate representation, and an
 * interpreter for that representation that follows the JavaScript stub the
 * PHP code emits. Every description, weight and the required score are
 * snapshotted when compiling; the score functions keep only what the emitted
 * JavaScript consults (the pattern, the constraint, the nested program).
 */
module Compiler {
  import opened Wrappers
  import opened Constraints
  import opened CharClasses
  import opened Results
  import opened Rules
  import opened Sums

  /** The body of a compiled rule's `score: function(p)`. */
  datatype ScoreFunction =
    | MatchCount(pattern: Pattern, constraint: Option<Range>)  // Regex::toJavaScript
    | Length(constraint: Option<Range>)                        // Size::toJavaScript
    | Nested(program: Program)                                 // SubPolicy::toJavaScript
    | NotImplemented                                           // Base::toJavaScript

  /** `{description: ..., score: function(p) {...}}`. */
  datatype CompiledRule = CompiledRule(description: string, score: ScoreFunction)

  /** `{rule: ..., weight: ...}`. */
  datatype CompiledWeightedRule = CompiledWeightedRule(rule: CompiledRule, weight: int)

  /** The `(function(p) {...})` stub: the compiled rules and the snapshotted required score. */
  datatype Program = Program(weightedRules: seq<CompiledWeightedRule>, requiredScore: int)

  /** What the stub returns: `{passed, requiredScore, score, messages}`. */
  datatype Outcome = Outcome(passed: bool, requiredScore: int, score: int, messages: seq<Message>)

  /** The stub's return value for a native `Result`. */
  function OutcomeOf(r: Result): Outcome
  {
    Outcome(r.Passed(), r.requiredScore, r.score, r.messages)
  }

  /** The compiled form every `Base` rule has unless it overrides it. */
  function BaseCompiled(): (c: CompiledRule)
    ensures c.description == "Not Implemented"
    ensures forall m: Matcher, pw: Password :: RunScore(c.score, m, pw) == 0
  {
    CompiledRule("Not Implemented", NotImplemented)
  }

  /** A rule's `toJavaScript()`, with the description it has now. */
  function CompileRule(r: Rule): CompiledRule
    decreases r
  {
    match r
    case Size(c) => CompiledRule(Description(r), Length(c))
    case Regex(p, _, c) => CompiledRule(Description(r), MatchCount(p, c))
    case SubPolicy(q) => CompiledRule(Description(r), Nested(Compile(q)))
  }

  /** `WeightedRule::toJavaScript`: this rule's compiled form and this weight. */
  function CompileWeightedRule(w: WeightedRule): (c: CompiledWeightedRule)
    ensures c.weight == w.weight
    decreases w
  {
    CompiledWeightedRule(CompileRule(w.rule), w.weight)
  }

  /** `Policy::toJavaScript`: every weighted rule in order and the current required score. */
  function Compile(p: PolicyData): (prog: Program)
    ensures prog.requiredScore == RequiredScore(p)
    ensures |prog.weightedRules| == |p.weightedRules|
    decreases p
  {
    Program(
      seq(|p.weightedRules|, i requires 0 <= i < |p.weightedRules| => CompileWeightedRule(p.weightedRules[i])),
      RequiredScore(p))
  }

  /** Runs a compiled `score: function(p)`. */
  function RunScore(f: ScoreFunction, m: Matcher, pw: Password): int
    decreases f
  {
    match f
    case MatchCount(p, Some(c)) => if c.Check(CountMatches(m, p, pw)) then 1 else 0
    case MatchCount(p, None) => if CountMatches(m, p, pw) > 0 then 1 else 0
    case Length(Some(c)) => if c.Check(|pw|) then 1 else 0
    case Length(None) => if |pw| > 0 then 1 else 0
    case Nested(prog) => if Run(prog, m, pw).passed then 1 else 0
    case NotImplemented => 0
  }

  /** The message the stub pushes for one compiled weighted rule. */
  function RunMessage(c: CompiledWeightedRule, m: Matcher, pw: Password): Message
    decreases c
  {
    var s := RunScore(c.rule.score, m, pw);
    Message(s, s * c.weight, c.rule.description)
  }

  /** The stub: score each rule, weight it, add it up, compare with the required score. */
  function Run(prog: Program, m: Matcher, pw: Password): Outcome
    decreases prog
  {
    var messages := seq(|prog.weightedRules|, i requires 0 <= i < |prog.weightedRules| => RunMessage(prog.weightedRules[i], m, pw));
    var total := TotalOf(messages);
    Outcome(total >= prog.requiredScore, prog.requiredScore, total, messages)
  }

  /** A compiled rule carries the rule's description and scores exactly as the rule does. */
  lemma {:induction false} CompileRuleCorrect(r: Rule, m: Matcher, pw: Password)
    ensures CompileRule(r).description == Description(r)
    ensures RunScore(CompileRule(r).score, m, pw) == Score(r, m, pw)
    decreases r
  {
    match r
    case Size(_) =>
    case Regex(_, _, _) =>
    case SubPolicy(q) => CompileCorrect(q, m, pw);
  }

  /**
   * Running the compiled program on any password gives the same `passed`,
   * `requiredScore`, `score` and messages as `test` on the compiled policy.
   */
  lemma {:induction false} CompileCorrect(p: PolicyData, m: Matcher, pw: Password)
    ensures Run(Compile(p), m, pw) == OutcomeOf(Evaluate(p, m, pw))
    decreases p
  {
    var out := Run(Compile(p), m, pw);
    var r := Evaluate(p, m, pw);
    forall i | 0 <= i < |p.weightedRules|
      ensures out.messages[i] == r.messages[i]
    {
      var w := p.weightedRules[i];
      CompileRuleCorrect(w.rule, m, pw);
      assert Compile(p).weightedRules[i] == CompileWeightedRule(w);
      assert out.messages[i] == RunMessage(CompileWeightedRule(w), m, pw);
      assert r.messages[i] == MessageFor(w, m, pw);
    }
    assert out.messages == r.messages;
  }

  // The code as written: `Size::toJavaScript` calls `toJavaScript()` on its
  // constraint without checking it, so a `Size` rule without a constraint
  // (`addRule(new Size())`) makes compilation fail.

  /** `Size`, `Regex` and `SubPolicy::toJavaScript` as written; `None` is the failure. */
  function CompileRuleAsWritten(r: Rule): (c: Option<CompiledRule>)
    ensures r.Size? ==> (c.None? <==> r.constraint.None?)
    ensures r.Regex? ==> c.Some?
    ensures c.Some? ==> c.value.description == Description(r)
    decreases r
  {
    match r
    case Size(None) => None
    case SubPolicy(q) =>
      (match CompileAsWritten(q)
       case None => None
       case Some(prog) => Some(CompiledRule(Description(r), Nested(prog))))
    case _ => Some(CompileRule(r))
  }

  /** `Policy::toJavaScript` as written: it fails when any rule, at any depth, fails. */
  function CompileAsWritten(p: PolicyData): (prog: Option<Program>)
    ensures prog.None? <==> exists i :: 0 <= i < |p.weightedRules| && CompileRuleAsWritten(p.weightedRules[i].rule).None?
    ensures prog.Some? ==> prog.value.requiredScore == RequiredScore(p)
    ensures prog.Some? ==> |prog.value.weightedRules| == |p.weightedRules|
    ensures prog.Some? ==> forall i :: 0 <= i < |p.weightedRules| ==>
      prog.value.weightedRules[i].weight == p.weightedRules[i].weight
    decreases p
  {
    if forall i :: 0 <= i < |p.weightedRules| ==> CompileRuleAsWritten(p.weightedRules[i].rule).Some? then
      Some(Program(
        seq(|p.weightedRules|, i requires 0 <= i < |p.weightedRules| && CompileRuleAsWritten(p.weightedRules[i].rule).Some? =>
          CompiledWeightedRule(CompileRuleAsWritten(p.weightedRules[i].rule).value, p.weightedRules[i].weight)),
        RequiredScore(p)))
    else None
  }

  /** Whether every `Size` rule, at any depth, has a constraint. */
  predicate SizesConstrained(p: PolicyData)
    decreases p
  {
    forall i :: 0 <= i < |p.weightedRules| ==> RuleSizesConstrained(p.weightedRules[i].rule)
  }

  predicate RuleSizesConstrained(r: Rule)
    decreases r
  {
    match r
    case Size(c) => c.Some?
    case Regex(_, _, _) => true
    case SubPolicy(q) => SizesConstrained(q)
  }

  /** Where the code as written compiles, it produces exactly `Compile`'s program. */
  lemma {:induction false} CompileRuleAsWrittenAgrees(r: Rule)
    ensures CompileRuleAsWritten(r).Some? <==> RuleSizesConstrained(r)
    ensures CompileRuleAsWritten(r).Some? ==> CompileRuleAsWritten(r).value == CompileRule(r)
    decreases r
  {
    match r
    case Size(_) =>
    case Regex(_, _, _) =>
    case SubPolicy(q) => CompileAsWrittenAgrees(q);
  }

  lemma {:induction false} CompileAsWrittenAgrees(p: PolicyData)
    ensures CompileAsWritten(p).Some? <==> SizesConstrained(p)
    ensures CompileAsWritten(p).Some? ==> CompileAsWritten(p).value == Compile(p)
    decreases p
  {
    forall i | 0 <= i < |p.weightedRules|
      ensures CompileRuleAsWritten(p.weightedRules[i].rule).Some? <==> RuleSizesConstrained(p.weightedRules[i].rule)
      ensures CompileRuleAsWritten(p.weightedRules[i].rule).Some? ==>
        CompileRuleAsWritten(p.weightedRules[i].rule).value == CompileRule(p.weightedRules[i].rule)
    {
      CompileRuleAsWrittenAgrees(p.weightedRules[i].rule);
    }
    if CompileAsWritten(p).Some? {
      assert CompileAsWritten(p).value.weightedRules == Compile(p).weightedRules;
    }
  }

  /**
   * The counterexample: a policy with one unconstrained `Size` rule is
   * evaluated natively (it passes exactly the non-empty passwords) but the
   * code as written cannot compile it; the corrected compiler can, and agrees.
   */
  lemma UnconstrainedSizeCounterexample(m: Matcher, pw: Password)
    ensures CompileAsWritten(PolicyData([WeightedRule(Size(None), 1)], None)) == None
    ensures Evaluate(PolicyData([WeightedRule(Size(None), 1)], None), m, pw).Passed() <==> pw != []
    ensures Run(Compile(PolicyData([WeightedRule(Size(None), 1)], None)), m, pw).passed <==> pw != []
  {
    var p := PolicyData([WeightedRule(Size(None), 1)], None);
    CompileAsWrittenAgrees(p);
    assert !RuleSizesConstrained(p.weightedRules[0].rule);
    var r := Evaluate(p, m, pw);
    assert r.messages == [MessageFor(p.weightedRules[0], m, pw)];
    assert TotalOf(r.messages) == r.messages[0].weightedScore by {
      assert r.messages[..|r.messages| - 1] == [];
      assert SumBy(r.messages[..|r.messages| - 1], WeightedScoreOf) == 0;
    }
    assert RequiredScore(p) == 1 by {
      assert p.weightedRules[..0] == [];
    }
    CompileCorrect(p, m, pw);
  }
}

=== FILE: example.dfy ===
/**
 * The two policies of the repository's `example.php`: a flat policy whose
 * weights let one of two substitute rules be missed, and the same
 * requirement written as two sub-policies. Both accept exactly the
 * passwords of `ExampleAccepts`, whatever the regular-expression matcher,
 * and the four sample passwords get the verdicts the example asserts.
 */
module Example {
  import opened Wrappers
  import opened Exceptions
  import opened Constraints
  import opened CharClasses
  import opened Results
  import opened Rules
  import opened Sums
  import opened Policies
  import opened RuleFacts
  import opened PolicyFacts

  /** 1 for a true condition, 0 otherwise. */
  function Point(b: bool): int
  {
    if b then 1 else 0
  }

  /** The rule `contains<Class>()` appends: `contains` of the class name, no description. */
  function ClassRule(c: CharClass): Rule
  {
    ContainsRule(c.Name(), "")
  }

  /** The symbol rule of both policies: at least two symbols. */
  function SymbolRule(): Rule
  {
    ClassRule(Symbol).WithConstraint(AtLeastRange(2))
  }

  /** The flat policy's rules, in the order the example adds them. */
  function FlatRules(): seq<WeightedRule>
  {
    [ WeightedRule(LengthRule(6, None), 2),
      WeightedRule(ClassRule(Uppercase), 2),
      WeightedRule(ClassRule(Lowercase), 2),
      WeightedRule(ClassRule(Digit), 2),
      WeightedRule(SymbolRule(), 1),
      WeightedRule(LengthRule(10, None), 1) ]
  }

  /**
   * The flat policy: four rules of weight 2, a symbol rule constrained to at
   * least two, a second length rule, and one of the ten points that may be
   * missed (`BuildFlat` derives it call by call).
   */
  function FlatPolicy(): PolicyData
  {
    PolicyData(FlatRules(), Some(9))
  }

  /** Proof helper, not a property of the policy: a sum over six elements, term by term. */
  lemma SumOfSix<T>(s: seq<T>, f: T -> int)
    requires |s| == 6
    ensures SumBy(s, f) == f(s[0]) + f(s[1]) + f(s[2]) + f(s[3]) + f(s[4]) + f(s[5])
  {
    forall k | 0 <= k < 6 ensures SumBy(s[..k + 1], f) == SumBy(s[..k], f) + f(s[k]) {
      assert s[..k + 1][..k] == s[..k];
    }
    assert s[..0] == [] && s[..6] == s;
  }

  /** The flat policy's weights add up to ten. */
  lemma FlatWeights()
    ensures SumBy(FlatRules(), WeightOf) == 10
  {
    SumOfSix(FlatRules(), WeightOf);
  }

  /** What both example policies demand of a password. */
  predicate ExampleAccepts(pw: Password)
  {
    && 6 <= |pw|
    && CountIn(Uppercase, pw) > 0
    && CountIn(Lowercase, pw) > 0
    && CountIn(Digit, pw) > 0
    && (CountIn(Symbol, pw) >= 2 || 10 <= |pw|)
  }

  /** A class rule scores when the class occurs in the password. */
  lemma ClassRuleScore(c: CharClass, m: Matcher, pw: Password)
    ensures Score(ClassRule(c), m, pw) == Point(CountIn(c, pw) > 0)
  {
    ContainsClassScore(c, "", m, pw);
    CountInPositive(c, pw);
  }

  /** A constrained class rule scores when the number of class bytes is in the range. */
  lemma ConstrainedClassRuleScore(c: CharClass, range: Range, m: Matcher, pw: Password)
    ensures Score(ClassRule(c).WithConstraint(range), m, pw) == Point(range.Check(CountIn(c, pw)))
  {
    NameTables(c);
  }

  /** A weighted class rule contributes its weight when the class occurs in the password. */
  lemma WeightedClassContribution(c: CharClass, weight: int, m: Matcher, pw: Password)
    ensures Contribution(m, pw)(WeightedRule(ClassRule(c), weight)) == weight * Point(CountIn(c, pw) > 0)
  {
    ClassRuleScore(c, m, pw);
  }

  /** A weighted rule constrained on a class contributes its weight when the class count is in range. */
  lemma WeightedConstrainedContribution(c: CharClass, range: Range, weight: int, m: Matcher, pw: Password)
    ensures Contribution(m, pw)(WeightedRule(ClassRule(c).WithConstraint(range), weight))
      == weight * Point(range.Check(CountIn(c, pw)))
  {
    ConstrainedClassRuleScore(c, range, m, pw);
  }

  /** A weighted length rule contributes its weight when the password is long enough. */
  lemma WeightedLengthContribution(min: nat, weight: int, m: Matcher, pw: Password)
    ensures Contribution(m, pw)(WeightedRule(LengthRule(min, None), weight)) == weight * Point(min <= |pw|)
  {
  }

  /** The flat policy's rules contribute the weights of the rules the password satisfies. */
  lemma FlatContributions(m: Matcher, pw: Password)
    ensures SumBy(FlatRules(), Contribution(m, pw)) ==
      2 * Point(6 <= |pw|) + 2 * Point(CountIn(Uppercase, pw) > 0)
      + 2 * Point(CountIn(Lowercase, pw) > 0) + 2 * Point(CountIn(Digit, pw) > 0)
      + Point(CountIn(Symbol, pw) >= 2) + Point(10 <= |pw|)
  {
    SumOfSix(FlatRules(), Contribution(m, pw));
    WeightedLengthContribution(6, 2, m, pw);
    WeightedClassContribution(Uppercase, 2, m, pw);
    WeightedClassContribution(Lowercase, 2, m, pw);
    WeightedClassContribution(Digit, 2, m, pw);
    WeightedConstrainedContribution(Symbol, AtLeastRange(2), 1, m, pw);
    WeightedLengthContribution(10, 1, m, pw);
  }

  /** The flat policy accepts exactly the passwords of `ExampleAccepts`. */
  lemma FlatVerdict(p: PolicyData, m: Matcher, pw: Password)
    requires p == FlatPolicy()
    ensures Evaluate(p, m, pw).Passed() <==> ExampleAccepts(pw)
  {
    ScoreIsWeightedSum(p, m, pw);
    FlatContributions(m, pw);
    assert Evaluate(p, m, pw).requiredScore == 9;
  }

  /** `Ax4k45`: six characters but no symbols, so neither substitute rule holds. */
  lemma ShortWithoutSymbols()
    ensures !ExampleAccepts(Bytes("Ax4k45"))
  {
    var pw := Bytes("Ax4k45");
    assert pw == [65, 120, 52, 107, 52, 53];
    CountInPositive(Symbol, pw);
  }

  /** `Ax#k$5`: every class is present and two symbols stand in for the missing length. */
  lemma ShortWithTwoSymbols()
    ensures ExampleAccepts(Bytes("Ax#k$5"))
  {
    var pw := Bytes("Ax#k$5");
    assert pw == [65, 120, 35, 107, 36, 53];
    CountInTwo(Symbol, pw, 2, 4);
    assert Uppercase.Contains(pw[0]) && Lowercase.Contains(pw[1]) && Digit.Contains(pw[5]);
    CountInPositive(Uppercase, pw);
    CountInPositive(Lowercase, pw);
    CountInPositive(Digit, pw);
  }

  /** `Ax4k45huig`: ten characters stand in for the missing symbols. */
  lemma LongWithoutSymbols()
    ensures ExampleAccepts(Bytes("Ax4k45huig"))
  {
    var pw := Bytes("Ax4k45huig");
    assert pw == [65, 120, 52, 107, 52, 53, 104, 117, 105, 103];
    assert Uppercase.Contains(pw[0]) && Lowercase.Contains(pw[1]) && Digit.Contains(pw[2]);
    CountInPositive(Uppercase, pw);
    CountInPositive(Lowercase, pw);
    CountInPositive(Digit, pw);
  }

  /** `gx4k45huig`: no upper-case letter, which nothing can stand in for. */
  lemma LongWithoutUppercase()
    ensures !ExampleAccepts(Bytes("gx4k45huig"))
  {
    var pw := Bytes("gx4k45huig");
    assert pw == [103, 120, 52, 107, 52, 53, 104, 117, 105, 103];
    CountInPositive(Uppercase, pw);
  }

  /** Proof helper, not a property of the policy: a sum over two elements, term by term. */
  lemma SumOfTwo<T>(s: seq<T>, f: T -> int)
    requires |s| == 2
    ensures SumBy(s, f) == f(s[0]) + f(s[1])
  {
    assert SumBy(s[..1], f) == f(s[0]) by {
      assert s[..1][..0] == [];
    }
    assert s[..|s| - 1] == s[..1];
  }

  /** Proof helper, not a property of the policy: a sum over four elements, term by term. */
  lemma SumOfFour<T>(s: seq<T>, f: T -> int)
    requires |s| == 4
    ensures SumBy(s, f) == f(s[0]) + f(s[1]) + f(s[2]) + f(s[3])
  {
    forall k | 0 <= k < 4 ensures SumBy(s[..k + 1], f) == SumBy(s[..k], f) + f(s[k]) {
      assert s[..k + 1][..k] == s[..k];
    }
    assert s[..0] == [] && s[..4] == s;
  }

  /** `$requirements`: length 6 and the three classes, each worth 1, all of them required. */
  function RequirementsPolicy(): PolicyData
  {
    PolicyData([ WeightedRule(LengthRule(6, None), 1),
                 WeightedRule(ClassRule(Uppercase), 1),
                 WeightedRule(ClassRule(Lowercase), 1),
                 WeightedRule(ClassRule(Digit), 1) ], None)
  }

  /** `$substitutions`: two symbols or length 10, one of the two points may be missed. */
  function SubstitutionsPolicy(): PolicyData
  {
    PolicyData([ WeightedRule(SymbolRule(), 1), WeightedRule(LengthRule(10, None), 1) ], Some(1))
  }

  /** The second policy of the example: both sub-policies as rules, both required. */
  function NestedPolicy(): PolicyData
  {
    PolicyData([ WeightedRule(SubPolicy(RequirementsPolicy()), 1),
                 WeightedRule(SubPolicy(SubstitutionsPolicy()), 1) ], None)
  }

  /** The requirements pass exactly when all four of their rules do. */
  lemma RequirementsVerdict(m: Matcher, pw: Password)
    ensures Evaluate(RequirementsPolicy(), m, pw).Passed() <==>
      6 <= |pw| && CountIn(Uppercase, pw) > 0 && CountIn(Lowercase, pw) > 0 && CountIn(Digit, pw) > 0
  {
    var p := RequirementsPolicy();
    var r := Evaluate(p, m, pw);
    assert r.requiredScore == 4 by {
      SumOfFour(p.weightedRules, WeightOf);
    }
    assert r.score == Point(6 <= |pw|) + Point(CountIn(Uppercase, pw) > 0)
      + Point(CountIn(Lowercase, pw) > 0) + Point(CountIn(Digit, pw) > 0) by {
      ScoreIsWeightedSum(p, m, pw);
      ClassRuleScore(Uppercase, m, pw);
      ClassRuleScore(Lowercase, m, pw);
      ClassRuleScore(Digit, m, pw);
      SumOfFour(p.weightedRules, Contribution(m, pw));
    }
  }

  /** The substitutions pass when at least one of their two rules does. */
  lemma SubstitutionsVerdict(m: Matcher, pw: Password)
    ensures Evaluate(SubstitutionsPolicy(), m, pw).Passed() <==> CountIn(Symbol, pw) >= 2 || 10 <= |pw|
  {
    var p := SubstitutionsPolicy();
    ScoreIsWeightedSum(p, m, pw);
    ConstrainedClassRuleScore(Symbol, AtLeastRange(2), m, pw);
    SumOfTwo(p.weightedRules, Contribution(m, pw));
  }

  /** The nested policy accepts exactly the passwords of `ExampleAccepts`. */
  lemma NestedVerdict(m: Matcher, pw: Password)
    ensures Evaluate(NestedPolicy(), m, pw).Passed() <==> ExampleAccepts(pw)
  {
    var p := NestedPolicy();
    ScoreIsWeightedSum(p, m, pw);
    RequirementsVerdict(m, pw);
    SubstitutionsVerdict(m, pw);
    SumOfTwo(p.weightedRules, Contribution(m, pw));
    SumOfTwo(p.weightedRules, WeightOf);
  }

  /** Writing the requirement as two sub-policies changes no verdict. */
  lemma ExamplesAgree(m: Matcher, pw: Password)
    ensures Evaluate(FlatPolicy(), m, pw).Passed() == Evaluate(NestedPolicy(), m, pw).Passed()
  {
    FlatVerdict(FlatPolicy(), m, pw);
    NestedVerdict(m, pw);
  }

  /** `->contains<Class>()->setWeight($weight)` on the object. */
  method AddWeightedClass(policy: Policy, c: CharClass, weight: int)
    modifies policy
    ensures policy.Data() == PolicyData(old(policy.Data()).weightedRules + [WeightedRule(ClassRule(c), weight)],
                                        old(policy.Data()).requiredScore)
  {
    ResolveMethodName(c);
    WeightAfterAppend(policy.Data(), ClassRule(c), weight);
    var called := policy.Call(c.MethodName());
    var weighed := policy.SetWeight(weight);
  }

  /** `->contains<Class>()->constrain()->atLeast($min)` on the object. */
  method AddClassAtLeast(policy: Policy, c: CharClass, min: nat)
    modifies policy
    ensures policy.Data() == Appended(old(policy.Data()), ClassRule(c).WithConstraint(AtLeastRange(min)))
  {
    ResolveMethodName(c);
    ConstrainAfterAppend(policy.Data(), ClassRule(c), AtLeastRange(min));
    var called := policy.Call(c.MethodName());
    var setter := policy.Constrain();
    var self := setter.value.AtLeast(min);
  }

  /** `->length($min)->setWeight($weight)` on the object. */
  method AddWeightedLength(policy: Policy, min: nat, weight: int)
    modifies policy
    ensures policy.Data() == PolicyData(old(policy.Data()).weightedRules + [WeightedRule(LengthRule(min, None), weight)],
                                        old(policy.Data()).requiredScore)
  {
    WeightAfterAppend(policy.Data(), LengthRule(min, None), weight);
    var self := policy.Length(min, None);
    var weighed := policy.SetWeight(weight);
  }

  /** Proof helper, not a property of the policy: six appends to an empty list give the six elements in order. */
  lemma AppendedSix<T>(a: T, b: T, c: T, d: T, e: T, g: T)
    ensures [] + [a] + [b] + [c] + [d] + [e] + [g] == [a, b, c, d, e, g]
  {
  }

  /** The flat policy built through the `Policy` object, magic `contains<Class>` calls included. */
  method BuildFlat() returns (policy: Policy)
    ensures policy.Data() == FlatPolicy()
  {
    var ws := FlatRules();
    policy := new Policy();
    AddWeightedLength(policy, 6, 2);
    AddWeightedClass(policy, Uppercase, 2);
    AddWeightedClass(policy, Lowercase, 2);
    AddWeightedClass(policy, Digit, 2);
    AddClassAtLeast(policy, Symbol, 2);
    var self := policy.Length(10, None);
    AppendedSix(ws[0], ws[1], ws[2], ws[3], ws[4], ws[5]);
    FlatWeights();
    self := policy.AllowMissedPoints(1);
  }

  /** `->contains<Class>()` on the object. */
  method AddClass(policy: Policy, c: CharClass)
    modifies policy
    ensures policy.Data() == Appended(old(policy.Data()), ClassRule(c))
  {
    ResolveMethodName(c);
    var called := policy.Call(c.MethodName());
  }

  /** `$requirements` built through a `Policy` object. */
  method BuildRequirements() returns (policy: Policy)
    ensures fresh(policy)
    ensures policy.Data() == RequirementsPolicy()
  {
    policy := new Policy();
    var self := policy.Length(6, None);
    AddClass(policy, Uppercase);
    AddClass(policy, Lowercase);
    AddClass(policy, Digit);
  }

  /** `$substitutions` built through a `Policy` object. */
  method BuildSubstitutions() returns (policy: Policy)
    ensures fresh(policy)
    ensures policy.Data() == SubstitutionsPolicy()
  {
    policy := new Policy();
    AddClassAtLeast(policy, Symbol, 2);
    var self := policy.Length(10, None);
    assert SumBy(policy.weightedRules, WeightOf) == 2 by {
      SumOfTwo(policy.weightedRules, WeightOf);
    }
    self := policy.AllowMissedPoints(1);
  }

  /** The nested policy built through `Policy` objects and `addPolicyAsRule`. */
  method BuildNested() returns (policy: Policy)
    ensures policy.Data() == NestedPolicy()
  {
    var requirements := BuildRequirements();
    var substitutions := BuildSubstitutions();
    policy := new Policy();
    var self := policy.AddPolicyAsRule(requirements);
    self := policy.AddPolicyAsRule(substitutions);
  }

  /** `test` on the flat policy passes exactly the passwords of `ExampleAccepts`. */
  method TestFlat(policy: Policy, m: Matcher, pw: Password) returns (passed: bool)
    requires policy.Data() == FlatPolicy()
    ensures passed <==> ExampleAccepts(pw)
  {
    var result := policy.Test(m, pw);
    FlatVerdict(policy.Data(), m, pw);
    passed := result.Passed();
  }
}

=== FILE: exceptions.dfy ===
/**
 * The exceptions the policy builder raises. The exception classes themselves
 * are not part of this model; only which one is raised matters.
 */
module Exceptions {

  /** `NoRuleSetException`, `NoConstraintsException` and `\BadMethodCallException`. */
  datatype BuildError = NoRuleSet | NoConstraints | BadMethodCall

  /** Either the normal return value or the exception that was thrown instead. */
  datatype Try<+T> = Ok(value: T) | Thrown(error: BuildError)
}

=== FILE: policy.dfy ===
/**
 * `Policy` and its `ConstraintSetter`. The value-level functions state what
 * each builder call does to the policy's state; the classes carry that state
 * in fields and their methods are proved to make exactly those changes.
 */
module Policies {
  import opened Wrappers
  import opened Text
  import opened Sums
  import opened Exceptions
  import opened Constraints
  import opened CharClasses
  import opened Results
  import opened Rules
  import opened Compiler

  // ----- the ranges ConstraintSetter installs -----

  /** `atLeast($min)`: `new Range($min, PHP_INT_MAX)`. */
  function AtLeastRange(min: nat): (r: Range)
    ensures forall n: nat :: r.Check(n) <==> min <= n
  {
    Range(min, None)
  }

  /** `atMost($max)`: `new Range(0, $max)`. */
  function AtMostRange(max: nat): (r: Range)
    ensures forall n: nat :: r.Check(n) <==> n <= max
  {
    Range(0, Some(max))
  }

  /** `between($min, $max)`: `new Range($min, $max)`. */
  function BetweenRange(min: nat, max: nat): (r: Range)
    ensures forall n: nat :: r.Check(n) <==> min <= n <= max
  {
    Range(min, Some(max))
  }

  /** `never()`: `new Range(0, 0)`. */
  function NeverRange(): (r: Range)
    ensures forall n: nat :: r.Check(n) <==> n == 0
  {
    Range(0, Some(0))
  }

  // ----- the rules the builders create -----

  /**
   * `if ($desc && !$description) $description = $desc;`: a truthy caller
   * description always wins, and the class label is only a fallback.
   */
  function ChooseDescription(classLabel: string, description: string): (d: string)
    ensures Truthy(description) || !Truthy(classLabel) ==> d == description
    ensures !Truthy(description) && Truthy(classLabel) ==> d == classLabel
  {
    if Truthy(classLabel) && !Truthy(description) then classLabel else description
  }

  /** The rule `contains($chars, $description)` appends: a character range with at least one match. */
  function ContainsRule(chars: string, description: string): (r: Rule)
    ensures r.Regex? && r.pattern == Bracket(ToCharClass(chars).0)
    ensures r.template == ChooseDescription(ToCharClass(chars).1, description)
    ensures r.constraint == Some(AtLeastRange(1))
  {
    var (fragment, classLabel) := ToCharClass(chars);
    Regex(Bracket(fragment), ChooseDescription(classLabel, description), None).WithConstraint(Range(1, None))
  }

  /** The rule `length($min, $max)` appends; `None` is the default `PHP_INT_MAX`. */
  function LengthRule(min: nat, max: Option<nat>): (r: Rule)
    ensures r.Size? && r.constraint == Some(Range(min, max))
    ensures forall m: Matcher, pw: Password ::
      Score(r, m, pw) == 1 <==> min <= |pw| && (max.None? || |pw| <= max.value)
  {
    Size(None).WithConstraint(Range(min, max))
  }

  /** The rule `startsWith($chars, $description)` appends. */
  function StartsWithRule(chars: string, description: string): (r: Rule)
    ensures r.Regex? && r.pattern == Leading(ToCharClass(chars).0)
    ensures r.template == "Starts with " + ChooseDescription(ToCharClass(chars).1, description)
    ensures r.constraint == Some(AtLeastRange(1))
  {
    var (fragment, classLabel) := ToCharClass(chars);
    Regex(Leading(fragment), "Starts with " + ChooseDescription(classLabel, description), None).WithConstraint(Range(1, None))
  }

  /** The rule `endsWith($chars, $description)` appends. */
  function EndsWithRule(chars: string, description: string): (r: Rule)
    ensures r.Regex? && r.pattern == Trailing(ToCharClass(chars).0)
    ensures r.template == "Ends with " + ChooseDescription(ToCharClass(chars).1, description)
    ensures r.constraint == Some(AtLeastRange(1))
  {
    var (fragment, classLabel) := ToCharClass(chars);
    Regex(Trailing(fragment), "Ends with " + ChooseDescription(classLabel, description), None).WithConstraint(Range(1, None))
  }

  /** The rule `match($regex, $description)` appends: the pattern must match. */
  function MatchRule(regex: string, description: string): (r: Rule)
    ensures r.Regex? && r.constraint == Some(AtLeastRange(1))
    ensures forall m: Matcher, pw: Password :: Score(r, m, pw) == 1 <==> m(regex, pw) >= 1
  {
    Regex(Verbatim(regex), description, None).WithConstraint(Range(1, None))
  }

  /** The rule `notMatch($regex, $description)` appends: the pattern must not match. */
  function NotMatchRule(regex: string, description: string): (r: Rule)
    ensures r.Regex? && r.constraint == Some(NeverRange())
    ensures forall m: Matcher, pw: Password :: Score(r, m, pw) == 1 <==> m(regex, pw) == 0
  {
    Regex(Verbatim(regex), description, None).WithConstraint(Range(0, Some(0)))
  }

  /**
   * `__call($name)`: `~^contains([A-Z][a-z]+)$~`, lower-cased, accepted only
   * when `toCharClass` knows the name.
   */
  function ResolveMagic(name: string): (r: Option<string>)
    ensures r.Some? ==> ClassNamed(r.value).Some? && |name| >= 10 && r.value == ToLower(name[8..])
    ensures r.Some? ==> name[..8] == "contains" && IsUpper(name[8])
  {
    if |name| >= 10 && name[..8] == "contains" && IsUpper(name[8])
       && (forall i :: 9 <= i < |name| ==> IsLower(name[i]))
    then
      var className := ToLower(name[8..]);
      if Truthy(ToCharClass(className).1) then Some(className) else None
    else None
  }

  // ----- what each call does to the policy's state -----

  /** `addRule($rule)`: append the rule with weight 1. */
  function Appended(p: PolicyData, r: Rule): (q: PolicyData)
    ensures q.weightedRules == p.weightedRules + [WeightedRule(r, 1)]
    ensures q.requiredScore == p.requiredScore
  {
    PolicyData(p.weightedRules + [WeightedRule(r, 1)], p.requiredScore)
  }

  /**
   * `setRequiredScore($score)`: store `score`, or, for `null`, the default
   * (the sum of the current weights) computed now.
   */
  function WithRequiredScore(p: PolicyData, score: Option<int>): (q: PolicyData)
    ensures q.weightedRules == p.weightedRules
    ensures q.requiredScore == Some(if score.None? then TotalWeight(p) else score.value)
  {
    var cleared := PolicyData(p.weightedRules, None);
    PolicyData(p.weightedRules, Some(if score.None? then RequiredScore(cleared) else score.value))
  }

  /** `allowMissedPoints($points)`: require `points` fewer than the current default. */
  function WithMissedPoints(p: PolicyData, points: int): (q: PolicyData)
    ensures q.weightedRules == p.weightedRules
    ensures RequiredScore(q) == TotalWeight(p) - points
  {
    var cleared := PolicyData(p.weightedRules, None);
    WithRequiredScore(cleared, Some(RequiredScore(cleared) - points))
  }

  /** `getLastWeightedRule()`: the most recently appended rule, or `null`. */
  function LastWeightedRule(p: PolicyData): (w: Option<WeightedRule>)
    ensures w.None? <==> p.weightedRules == []
    ensures w.Some? ==> w.value == p.weightedRules[|p.weightedRules| - 1]
  {
    if p.weightedRules == [] then None else Some(p.weightedRules[|p.weightedRules| - 1])
  }

  /** `setWeight($weight)`: only the last rule's weight changes; none yet is an error. */
  function Reweighted(p: PolicyData, weight: int): (q: Try<PolicyData>)
    ensures q.Thrown? <==> p.weightedRules == []
    ensures q.Thrown? ==> q.error == NoRuleSet
    ensures q.Ok? ==>
      var n := |p.weightedRules|;
      && |q.value.weightedRules| == n
      && q.value.requiredScore == p.requiredScore
      && q.value.weightedRules[..n - 1] == p.weightedRules[..n - 1]
      && q.value.weightedRules[n - 1].rule == p.weightedRules[n - 1].rule
      && q.value.weightedRules[n - 1].weight == weight
  {
    match LastWeightedRule(p)
    case None => Thrown(NoRuleSet)
    case Some(last) =>
      Ok(PolicyData(p.weightedRules[|p.weightedRules| - 1 := WeightedRule(last.rule, weight)], p.requiredScore))
  }

  /**
   * `constrain()`: the position of the rule the returned setter is bound to
   * (the last one), or the exception raised.
   */
  function ConstraintTarget(p: PolicyData): (t: Try<nat>)
    ensures p.weightedRules == [] ==> t == Thrown(NoRuleSet)
    ensures p.weightedRules != [] && !p.weightedRules[|p.weightedRules| - 1].rule.AcceptsConstraints() ==>
      t == Thrown(NoConstraints)
    ensures p.weightedRules != [] && p.weightedRules[|p.weightedRules| - 1].rule.AcceptsConstraints() ==>
      t == Ok(|p.weightedRules| - 1)
    ensures t.Ok? ==> t.value == |p.weightedRules| - 1 && p.weightedRules[t.value].rule.AcceptsConstraints()
  {
    match LastWeightedRule(p)
    case None => Thrown(NoRuleSet)
    case Some(last) =>
      if last.rule.AcceptsConstraints() then Ok(|p.weightedRules| - 1) else Thrown(NoConstraints)
  }

  /**
   * `ConstraintSetter::applyConstraint`: the bound rule's constraint is
   * replaced; weights, the number of rules and the required score stay.
   */
  function Constrained(p: PolicyData, index: nat, c: Range): (q: PolicyData)
    requires index < |p.weightedRules| && p.weightedRules[index].rule.AcceptsConstraints()
    ensures |q.weightedRules| == |p.weightedRules|
    ensures q.requiredScore == p.requiredScore
    ensures RequiredScore(q) == RequiredScore(p)
    ensures forall i :: 0 <= i < |p.weightedRules| && i != index ==> q.weightedRules[i] == p.weightedRules[i]
    ensures q.weightedRules[index].weight == p.weightedRules[index].weight
    ensures q.weightedRules[index].rule == p.weightedRules[index].rule.WithConstraint(c)
  {
    var w := p.weightedRules[index];
    var q := PolicyData(p.weightedRules[index := WeightedRule(w.rule.WithConstraint(c), w.weight)], p.requiredScore);
    SumByPointwise(p.weightedRules, q.weightedRules, WeightOf, WeightOf);
    q
  }

  // ----- the objects -----

  class Policy {
    var weightedRules: seq<WeightedRule>
    var requiredScore: Option<int>

    /** The policy's state as a value. */
    function Data(): PolicyData
      reads this
    {
      PolicyData(weightedRules, requiredScore)
    }

    constructor ()
      ensures Data() == PolicyData([], None)
    {
      weightedRules := [];
      requiredScore := None;
    }

    /** `getRequiredScore()`: sums the weights when no explicit value is set. */
    method GetRequiredScore() returns (score: int)
      ensures score == RequiredScore(Data())
    {
      if requiredScore.Some? {
        return requiredScore.value;
      }
      var total := 0;
      var i := 0;
      while i < |weightedRules|
        invariant 0 <= i <= |weightedRules|
        invariant total == SumBy(weightedRules[..i], WeightOf)
      {
        assert weightedRules[..i + 1][..i] == weightedRules[..i];
        total := total + weightedRules[i].weight;
        i := i + 1;
      }
      assert weightedRules[..i] == weightedRules;
      score := total;
    }

    method SetRequiredScore(score: Option<int>) returns (self: Policy)
      modifies this
      ensures self == this
      ensures Data() == WithRequiredScore(old(Data()), score)
    {
      var s := score;
      if s.None? {
        requiredScore := None;
        var d := GetRequiredScore();
        s := Some(d);
      }
      requiredScore := s;
      self := this;
    }

    method AllowMissedPoints(points: int) returns (self: Policy)
      modifies this
      ensures self == this
      ensures Data() == WithMissedPoints(old(Data()), points)
    {
      requiredScore := None;
      var d := GetRequiredScore();
      self := SetRequiredScore(Some(d - points));
    }

    method Contains(chars: string, description: string) returns (self: Policy)
      modifies this
      ensures self == this
      ensures Data() == Appended(old(Data()), ContainsRule(chars, description))
    {
      var (fragment, classLabel) := ToCharClass(chars);
      var text := description;
      if Truthy(classLabel) && !Truthy(text) {
        text := classLabel;
      }
      var rule := Regex(Bracket(fragment), text, None);
      rule := rule.WithConstraint(Range(1, None));
      self := AddRule(rule);
    }

    method Length(min: nat, max: Option<nat>) returns (self: Policy)
      modifies this
      ensures self == this
      ensures Data() == Appended(old(Data()), LengthRule(min, max))
    {
      var rule := Size(None);
      rule := rule.WithConstraint(Range(min, max));
      self := AddRule(rule);
    }

    method EndsWith(chars: string, description: string) returns (self: Policy)
      modifies this
      ensures self == this
      ensures Data() == Appended(old(Data()), EndsWithRule(chars, description))
    {
      var (fragment, classLabel) := ToCharClass(chars);
      var text := description;
      if Truthy(classLabel) && !Truthy(text) {
        text := classLabel;
      }
      text := "Ends with " + text;
      var rule := Regex(Trailing(fragment), text, None);
      rule := rule.WithConstraint(Range(1, None));
      self := AddRule(rule);
    }

    method StartsWith(chars: string, description: string) returns (self: Policy)
      modifies this
      ensures self == this
      ensures Data() == Appended(old(Data()), StartsWithRule(chars, description))
    {
      var (fragment, classLabel) := ToCharClass(chars);
      var text := description;
      if Truthy(classLabel) && !Truthy(text) {
        text := classLabel;
      }
      text := "Starts with " + text;
      var rule := Regex(Leading(fragment), text, None);
      rule := rule.WithConstraint(Range(1, None));
      self := AddRule(rule);
    }

    method NotMatch(regex: string, description: string) returns (self: Policy)
      modifies this
      ensures self == this
      ensures Data() == Appended(old(Data()), NotMatchRule(regex, description))
    {
      var rule := Regex(Verbatim(regex), description, None);
      rule := rule.WithConstraint(Range(0, Some(0)));
      self := AddRule(rule);
    }

    method Match(regex: string, description: string) returns (self: Policy)
      modifies this
      ensures self == this
      ensures Data() == Appended(old(Data()), MatchRule(regex, description))
    {
      var rule := Regex(Verbatim(regex), description, None);
      rule := rule.WithConstraint(Range(1, None));
      self := AddRule(rule);
    }

    /** The nested policy is taken by value: its state at the time of the call. */
    method AddPolicyAsRule(policy: Policy) returns (self: Policy)
      modifies this
      ensures self == this
      ensures Data() == Appended(old(Data()), SubPolicy(old(policy.Data())))
    {
      self := AddRule(SubPolicy(policy.Data()));
    }

    method AddRule(rule: Rule) returns (self: Policy)
      modifies this
      ensures self == this
      ensures Data() == Appended(old(Data()), rule)
    {
      weightedRules := weightedRules + [WeightedRule(rule, 1)];
      self := this;
    }

    method SetWeight(weight: int) returns (result: Try<Policy>)
      modifies this
      ensures match Reweighted(old(Data()), weight)
        case Ok(q) => result == Ok(this) && Data() == q
        case Thrown(e) => result == Thrown(e) && Data() == old(Data())
    {
      var last := LastWeightedRule(Data());
      if last.None? {
        return Thrown(NoRuleSet);
      }
      weightedRules := weightedRules[|weightedRules| - 1 := WeightedRule(last.value.rule, weight)];
      result := Ok(this);
    }

    method Constrain() returns (result: Try<ConstraintSetter>)
      ensures match ConstraintTarget(Data())
        case Ok(i) => result.Ok? && result.value.policy == this && result.value.index == i && result.value.Valid()
        case Thrown(e) => result == Thrown(e)
    {
      var last := LastWeightedRule(Data());
      if last.None? {
        return Thrown(NoRuleSet);
      }
      if !last.value.rule.AcceptsConstraints() {
        return Thrown(NoConstraints);
      }
      var setter := new ConstraintSetter(this, |weightedRules| - 1);
      result := Ok(setter);
    }

    /** `containsLetter()`, `containsDigit()`, ...: `contains` of the lower-cased class name. */
    method Call(name: string) returns (result: Try<Policy>)
      modifies this
      ensures match ResolveMagic(name)
        case Some(className) => result == Ok(this) && Data() == Appended(old(Data()), ContainsRule(className, ""))
        case None => result == Thrown(BadMethodCall) && Data() == old(Data())
    {
      var resolved := ResolveMagic(name);
      if resolved.None? {
        return Thrown(BadMethodCall);
      }
      var self := Contains(resolved.value, "");
      result := Ok(self);
    }

    /** `toJavaScript()`: compiles the current state into a program that evaluates as `test` does. */
    method ToJavaScript() returns (program: Program)
      ensures program == Compile(Data())
      ensures forall m: Matcher, pw: Password :: Run(program, m, pw) == OutcomeOf(Evaluate(Data(), m, pw))
    {
      var compiled: seq<CompiledWeightedRule> := [];
      var i := 0;
      while i < |weightedRules|
        invariant 0 <= i <= |weightedRules|
        invariant compiled == Compile(Data()).weightedRules[..i]
      {
        compiled := compiled + [CompileWeightedRule(weightedRules[i])];
        i := i + 1;
      }
      var required := GetRequiredScore();
      assert compiled == Compile(Data()).weightedRules;
      program := Program(compiled, required);
      assert program == Compile(Data());
      forall m: Matcher, pw: Password
        ensures Run(program, m, pw) == OutcomeOf(Evaluate(Data(), m, pw))
      {
        CompileCorrect(Data(), m, pw);
      }
    }

    /** `test($password)`: scores every rule in order; the policy is not modified. */
    method Test(m: Matcher, password: Password) returns (result: Result)
      ensures result == Evaluate(Data(), m, password)
    {
      var messages: seq<Message> := [];
      var totalScore := 0;
      var required := GetRequiredScore();
      ghost var expected := Evaluate(Data(), m, password).messages;
      var i := 0;
      while i < |weightedRules|
        invariant 0 <= i <= |weightedRules|
        invariant messages == expected[..i]
        invariant totalScore == TotalOf(messages)
      {
        var weightedRule := weightedRules[i];
        var score := Score(weightedRule.rule, m, password);
        var weightedScore := score * weightedRule.weight;
        var message := Message(score, weightedScore, Description(weightedRule.rule));
        assert message == expected[i] by {
          assert expected[i] == MessageFor(weightedRule, m, password);
        }
        assert expected[..i + 1] == messages + [message];
        assert TotalOf(messages + [message]) == totalScore + weightedScore by {
          assert (messages + [message])[..i] == messages;
        }
        totalScore := totalScore + weightedScore;
        messages := messages + [message];
        i := i + 1;
      }
      assert messages == expected;
      result := Result(totalScore, required, messages);
    }
  }

  /** The handle `constrain()` returns, bound to one rule of one policy. */
  class ConstraintSetter {
    const policy: Policy
    const index: nat

    constructor (policy: Policy, index: nat)
      ensures this.policy == policy && this.index == index
    {
      this.policy := policy;
      this.index := index;
    }

    /** The bound rule exists and accepts constraints; appending rules keeps this true. */
    predicate Valid()
      reads policy
    {
      index < |policy.weightedRules| && policy.weightedRules[index].rule.AcceptsConstraints()
    }

    method ApplyConstraint(c: Range) returns (p: Policy)
      requires Valid()
      modifies policy
      ensures p == policy && Valid()
      ensures policy.Data() == Constrained(old(policy.Data()), index, c)
    {
      var w := policy.weightedRules[index];
      policy.weightedRules := policy.weightedRules[index := WeightedRule(w.rule.WithConstraint(c), w.weight)];
      p := policy;
    }

    method AtLeast(min: nat) returns (p: Policy)
      requires Valid()
      modifies policy
      ensures p == policy && Valid()
      ensures policy.Data() == Constrained(old(policy.Data()), index, AtLeastRange(min))
    {
      p := ApplyConstraint(Range(min, None));
    }

    method AtMost(max: nat) returns (p: Policy)
      requires Valid()
      modifies policy
      ensures p == policy && Valid()
      ensures policy.Data() == Constrained(old(policy.Data()), index, AtMostRange(max))
    {
      p := ApplyConstraint(Range(0, Some(max)));
    }

    method Between(min: nat, max: nat) returns (p: Policy)
      requires Valid()
      modifies policy
      ensures p == policy && Valid()
      ensures policy.Data() == Constrained(old(policy.Data()), index, BetweenRange(min, max))
    {
      p := ApplyConstraint(Range(min, Some(max)));
    }

    method Never() returns (p: Policy)
      requires Valid()
      modifies policy
      ensures p == policy && Valid()
      ensures policy.Data() == Constrained(old(policy.Data()), index, NeverRange())
    {
      p := ApplyConstraint(Range(0, Some(0)));
    }
  }
}

=== FILE: policy_facts.dfy ===
/** Properties of the builder calls, stated on the policy's state. */
module PolicyFacts {
  import opened Wrappers
  import opened Text
  import opened Sums
  import opened Exceptions
  import opened Constraints
  import opened CharClasses
  import opened Results
  import opened Rules
  import opened Policies

  /**
   * Appending a rule raises the default required score by its weight 1, and
   * leaves an explicit required score (including a snapshot taken by
   * `setRequiredScore(null)`) as it was.
   */
  lemma RequiredScoreAfterAppend(p: PolicyData, r: Rule)
    ensures RequiredScore(Appended(p, r)) == if p.requiredScore.None? then RequiredScore(p) + 1 else RequiredScore(p)
  {
    var q := Appended(p, r);
    SumByAppend(p.weightedRules, [WeightedRule(r, 1)], WeightOf);
    assert [WeightedRule(r, 1)][..0] == [];
  }

  /** `allowMissedPoints` rebases on the current default, so a second call does not subtract twice. */
  lemma MissedPointsRebase(p: PolicyData, first: int, second: int)
    ensures WithMissedPoints(WithMissedPoints(p, first), second) == WithMissedPoints(p, second)
    ensures RequiredScore(WithMissedPoints(WithMissedPoints(p, first), second)) == TotalWeight(p) - second
  {
  }

  /** `->rule()->setWeight($w)` appends the rule with weight `w` and touches nothing else. */
  lemma WeightAfterAppend(p: PolicyData, r: Rule, weight: int)
    ensures Reweighted(Appended(p, r), weight) == Ok(PolicyData(p.weightedRules + [WeightedRule(r, weight)], p.requiredScore))
  {
    var ws := p.weightedRules + [WeightedRule(r, 1)];
    assert ws[|ws| - 1 := WeightedRule(r, weight)] == p.weightedRules + [WeightedRule(r, weight)];
  }

  /**
   * `->rule()->constrain()->...` binds the setter to the new rule, and the
   * constraint it installs is as if the rule had been appended constrained.
   */
  lemma ConstrainAfterAppend(p: PolicyData, r: Rule, c: Range)
    requires r.AcceptsConstraints()
    ensures ConstraintTarget(Appended(p, r)) == Ok(|p.weightedRules|)
    ensures Constrained(Appended(p, r), |p.weightedRules|, c) == Appended(p, r.WithConstraint(c))
  {
  }

  /**
   * A builder call adds exactly one message at the end, leaves the earlier
   * ones as they were, and adds the new rule's score to the total.
   */
  lemma {:induction false} EvaluateAppended(p: PolicyData, r: Rule, m: Matcher, pw: Password)
    ensures Evaluate(Appended(p, r), m, pw).messages == Evaluate(p, m, pw).messages + [MessageFor(WeightedRule(r, 1), m, pw)]
    ensures Evaluate(Appended(p, r), m, pw).score == Evaluate(p, m, pw).score + Score(r, m, pw)
  {
    var q := Appended(p, r);
    var before := Evaluate(p, m, pw).messages;
    var after := Evaluate(q, m, pw).messages;
    var added := MessageFor(WeightedRule(r, 1), m, pw);
    forall i | 0 <= i < |after| ensures after[i] == (before + [added])[i] {
      if i < |before| {
        assert q.weightedRules[i] == p.weightedRules[i];
      }
    }
    assert after == before + [added];
    SumByAppend(before, [added], WeightedScoreOf);
    assert [added][..0] == [];
  }

  /**
   * `setWeight` changes only the last rule's contribution: its old weighted
   * score is replaced by its score times the new weight.
   */
  lemma {:induction false} EvaluateReweighted(p: PolicyData, weight: int, m: Matcher, pw: Password)
    requires p.weightedRules != []
    ensures Reweighted(p, weight).Ok?
    ensures
      var last := p.weightedRules[|p.weightedRules| - 1];
      Evaluate(Reweighted(p, weight).value, m, pw).score
        == Evaluate(p, m, pw).score - Score(last.rule, m, pw) * last.weight + Score(last.rule, m, pw) * weight
  {
    var q := Reweighted(p, weight).value;
    var n := |p.weightedRules| - 1;
    var before := Evaluate(p, m, pw).messages;
    var after := Evaluate(q, m, pw).messages;
    assert before == before[..n] + [before[n]];
    assert after == after[..n] + [after[n]];
    assert after[..n] == before[..n] by {
      forall i | 0 <= i < n ensures after[i] == before[i] {
        assert q.weightedRules[i] == q.weightedRules[..n][i] == p.weightedRules[..n][i] == p.weightedRules[i];
      }
    }
    SumByAppend(before[..n], [before[n]], WeightedScoreOf);
    SumByAppend(after[..n], [after[n]], WeightedScoreOf);
    assert [before[n]][..0] == [] && [after[n]][..0] == [];
  }

  /** Constraining a rule changes no other rule's message. */
  lemma EvaluateConstrained(p: PolicyData, index: nat, c: Range, m: Matcher, pw: Password)
    requires index < |p.weightedRules| && p.weightedRules[index].rule.AcceptsConstraints()
    ensures |Evaluate(Constrained(p, index, c), m, pw).messages| == |Evaluate(p, m, pw).messages|
    ensures forall i :: 0 <= i < |p.weightedRules| && i != index ==>
      Evaluate(Constrained(p, index, c), m, pw).messages[i] == Evaluate(p, m, pw).messages[i]
    ensures Evaluate(Constrained(p, index, c), m, pw).requiredScore == Evaluate(p, m, pw).requiredScore
  {
  }

  /** `contains(<class name>)` scores 1 exactly when some byte of the password is in the class. */
  lemma ContainsClassScore(c: CharClass, description: string, m: Matcher, pw: Password)
    ensures Score(ContainsRule(c.Name(), description), m, pw) == 1
      <==> exists i :: 0 <= i < |pw| && c.Contains(pw[i])
  {
    var r := ContainsRule(c.Name(), description);
    NameTables(c);
    assert r.pattern == Bracket(c.Fragment());
    assert CountMatches(m, r.pattern, pw) == CountIn(c, pw);
    assert Score(r, m, pw) == 1 <==> CountIn(c, pw) >= 1;
    CountInPositive(c, pw);
  }

  /**
   * With no description of its own (or a falsy one), a class rule is
   * described by the class's label; `startsWith` and `endsWith` prefix it.
   */
  lemma ClassRuleDescriptions(c: CharClass, description: string)
    requires !Truthy(description)
    ensures Description(ContainsRule(c.Name(), description)) == c.Label()
    ensures Description(StartsWithRule(c.Name(), description)) == "Starts with " + c.Label()
    ensures Description(EndsWithRule(c.Name(), description)) == "Ends with " + c.Label()
  {
    NameTables(c);
    LabelShape(c);
    var message := BaseDescription(Some(AtLeastRange(1)));
    assert '%' !in "Starts with " + c.Label() && '%' !in "Ends with " + c.Label();
    SprintfWithoutPercent(c.Label(), message);
    SprintfWithoutPercent("Starts with " + c.Label(), message);
    SprintfWithoutPercent("Ends with " + c.Label(), message);
  }

  /** `UpperChar` undoes `LowerChar` on an upper-case letter. */
  lemma {:induction false} CapitalizedIsDetermined(x: string, s: string)
    requires |x| >= 1 && IsUpper(x[0])
    requires forall j :: 1 <= j < |x| ==> IsLower(x[j])
    requires ToLower(x) == s
    ensures x == [UpperChar(s[0])] + s[1..]
  {
    forall j | 0 <= j < |x| ensures x[j] == ([UpperChar(s[0])] + s[1..])[j] {
      if j > 0 {
        assert s[j] == LowerChar(x[j]);
      }
    }
  }

  /** Each `contains<Class>` name resolves to its lower-case class name. */
  lemma ResolveMethodName(c: CharClass)
    ensures ResolveMagic(c.MethodName()) == Some(c.Name())
  {
    MethodNameShape(c);
    var name, tail := c.MethodName(), c.Name();
    assert name[..8] == "contains";
    assert name[8..] == [UpperChar(tail[0])] + tail[1..];
    assert forall i :: 9 <= i < |name| ==> name[i] == tail[i - 8];
    assert ToLower(name[8..]) == tail by {
      forall i | 0 <= i < |tail| ensures ToLower(name[8..])[i] == tail[i] {
        if i > 0 {
          assert name[8..][i] == tail[i];
        }
      }
    }
    assert ClassNamed(tail) == Some(c);
  }

  /** A name `__call` resolves is the method name of the class it resolves to. */
  lemma ResolvedIsMethodName(name: string)
    requires ResolveMagic(name).Some?
    ensures ClassNamed(ToLower(name[8..])).Some?
    ensures name == ClassNamed(ToLower(name[8..])).value.MethodName()
  {
    var x := name[8..];
    var s := ToLower(x);
    assert ClassNamed(s).Some? by {
      assert Truthy(ToCharClass(s).1);
    }
    var c := ClassNamed(s).value;
    assert x == [UpperChar(s[0])] + s[1..] by {
      assert IsUpper(x[0]);
      assert forall j :: 1 <= j < |x| ==> IsLower(x[j]) by {
        forall j | 1 <= j < |x| ensures IsLower(x[j]) {
          assert x[j] == name[j + 8];
        }
      }
      CapitalizedIsDetermined(x, s);
    }
    assert name == "contains" + x by {
      assert name == name[..8] + name[8..];
    }
    MethodNameShape(c);
  }

  /**
   * `__call` accepts exactly the seven `contains<Class>` names and resolves
   * each to `contains` of the lower-case class name.
   */
  lemma ResolveMagicExact(name: string)
    ensures ResolveMagic(name).Some? <==> exists c: CharClass :: name == c.MethodName()
    ensures forall c: CharClass :: name == c.MethodName() ==> ResolveMagic(name) == Some(c.Name())
  {
    forall c: CharClass | name == c.MethodName() ensures ResolveMagic(name) == Some(c.Name()) {
      ResolveMethodName(c);
    }
    if ResolveMagic(name).Some? {
      ResolvedIsMethodName(name);
    }
  }
}

=== FILE: range.dfy ===
/**
 * The `Range` constraint: an inclusive bound on a count (a length or a
 * number of pattern matches). PHP marks an open upper bound with the
 * `PHP_INT_MAX` sentinel; here it is `None`. The `Range` class itself is not
 * part of this model: `Check` is the inclusive bound its name and use imply,
 * and the wording of `Message` is assumed.
 */
module Constraints {
  import opened Wrappers
  import opened Text

  datatype Range = Range(min: nat, max: Option<nat>) {

    /** `check($num)`: `min <= n <= max`. */
    predicate Check(n: nat)
    {
      min <= n && (max.None? || n <= max.value)
    }

    /** `getMessage()`, in an assumed wording: the text spliced into rule descriptions. */
    function Message(): (m: string)
      ensures m != "" && '%' !in m
    {
      match max
      case None => "at least " + NatToString(min)
      case Some(hi) =>
        if hi == 0 then "none"
        else if hi == min then "exactly " + NatToString(min)
        else if min == 0 then "at most " + NatToString(hi)
        else "between " + NatToString(min) + " and " + NatToString(hi)
    }
  }
}

=== FILE: results.dfy ===
/** `Result`: the immutable outcome of one evaluation. */
module Results {
  import opened Sums

  /** One entry of `getMessages()`: `{score, weightedScore, description}`. */
  datatype Message = Message(score: int, weightedScore: int, description: string)

  /**
   * The constructor arguments are the fields and the getters are their
   * destructors; a datatype value cannot be modified after construction.
   */
  datatype Result = Result(score: int, requiredScore: int, messages: seq<Message>) {

    /** `passed()`: the score reaches the required score. */
    predicate Passed()
    {
      score >= requiredScore
    }
  }

  function WeightedScoreOf(m: Message): int
  {
    m.weightedScore
  }

  /** The total of the weighted scores of `messages`, as `test` accumulates it. */
  function TotalOf(messages: seq<Message>): int
  {
    SumBy(messages, WeightedScoreOf)
  }

  /** For a fixed required score, a higher score never turns a pass into a failure. */
  lemma PassedIsMonotone(r: Result, s: Result)
    requires r.requiredScore == s.requiredScore && r.score <= s.score
    ensures r.Passed() ==> s.Passed()
  {
  }
}

=== FILE: rule_facts.dfy ===
/** Properties of the rule variants and of the native evaluator. */
module RuleFacts {
  import opened Wrappers
  import opened Text
  import opened Sums
  import opened Constraints
  import opened CharClasses
  import opened Results
  import opened Rules

  /** A rule without a constraint behaves as one constrained to "at least 1". */
  lemma UnconstrainedIsAtLeastOne(n: nat)
    ensures TestConstraint(None, n) == TestConstraint(Some(Range(1, None)), n)
  {
  }

  /** `Size` scores the raw byte count; with no constraint any non-empty password scores 1. */
  lemma SizeScore(c: Option<Range>, m: Matcher, pw: Password)
    ensures Score(Size(c), m, pw) == 1 <==> TestConstraint(c, |pw|)
    ensures c.None? ==> (Score(Size(c), m, pw) == 1 <==> pw != [])
  {
  }

  /** With no constraint, a `Regex` rule scores 1 exactly when the pattern matches at least once. */
  lemma RegexScoreWithoutConstraint(p: Pattern, t: string, m: Matcher, pw: Password)
    ensures Score(Regex(p, t, None), m, pw) == 1 <==> CountMatches(m, p, pw) >= 1
  {
  }

  /** The total score is the sum over the rules of score times weight. */
  lemma {:induction false} ScoreIsWeightedSum(p: PolicyData, m: Matcher, pw: Password)
    ensures Evaluate(p, m, pw).score == SumBy(p.weightedRules, Contribution(m, pw))
  {
    var r := Evaluate(p, m, pw);
    var f := Contribution(m, pw);
    forall i | 0 <= i < |r.messages|
      ensures WeightedScoreOf(r.messages[i]) == f(p.weightedRules[i])
    {
      var w := p.weightedRules[i];
      assert r.messages[i] == MessageFor(w, m, pw);
      assert f(w) == Score(w.rule, m, pw) * w.weight;
    }
    SumByPointwise(r.messages, p.weightedRules, WeightedScoreOf, f);
  }

  /**
   * Insertion order does not affect the verdict: reordering the rules keeps
   * the score, the required score and hence `passed`.
   */
  lemma ReorderingKeepsVerdict(p: PolicyData, q: PolicyData, m: Matcher, pw: Password)
    requires multiset(p.weightedRules) == multiset(q.weightedRules)
    requires p.requiredScore == q.requiredScore
    ensures Evaluate(q, m, pw).score == Evaluate(p, m, pw).score
    ensures RequiredScore(q) == RequiredScore(p)
    ensures Evaluate(q, m, pw).Passed() == Evaluate(p, m, pw).Passed()
  {
    ScoreIsWeightedSum(p, m, pw);
    ScoreIsWeightedSum(q, m, pw);
    SumByPermutation(p.weightedRules, q.weightedRules, Contribution(m, pw));
    SumByPermutation(p.weightedRules, q.weightedRules, WeightOf);
  }

  /**
   * A sub-policy whose required score is at most 0 describes itself as
   * always accepting, whatever its weights.
   */
  lemma SubPolicyAcceptedDescription(q: PolicyData)
    requires RequiredScore(q) <= 0
    ensures Description(SubPolicy(q)) == "The password will always be accepted."
  {
  }

  /**
   * A sub-policy whose weights are non-negative and whose required score is
   * at most 0 accepts every password and says so.
   */
  lemma SubPolicyAlwaysAccepted(q: PolicyData, m: Matcher, pw: Password)
    requires forall i :: 0 <= i < |q.weightedRules| ==> q.weightedRules[i].weight >= 0
    requires RequiredScore(q) <= 0
    ensures Score(SubPolicy(q), m, pw) == 1
    ensures Description(SubPolicy(q)) == "The password will always be accepted."
  {
    var f := Contribution(m, pw);
    forall i | 0 <= i < |q.weightedRules| ensures f(q.weightedRules[i]) >= 0 {
      var w := q.weightedRules[i];
      assert Score(w.rule, m, pw) >= 0 && w.weight >= 0;
    }
    SumByNonNegative(q.weightedRules, f);
    ScoreIsWeightedSum(q, m, pw);
  }

  /** A sub-policy scores 1 exactly when the nested policy passes, whatever its own score is. */
  lemma SubPolicyScore(q: PolicyData, m: Matcher, pw: Password)
    ensures Score(SubPolicy(q), m, pw) == 1 <==> Evaluate(q, m, pw).score >= RequiredScore(q)
  {
  }

  /**
   * A sub-policy that requires points describes the required score and lists
   * every nested rule as "desc (for W points)", in insertion order.
   */
  lemma SubPolicyDescription(q: PolicyData)
    requires RequiredScore(q) > 0
    ensures Description(SubPolicy(q))
      == "The password must receive " + IntToString(RequiredScore(q)) + " points via the rules ["
      + Join(", ", Summaries(q)) + "]"
    ensures |Summaries(q)| == |q.weightedRules|
    ensures forall i :: 0 <= i < |q.weightedRules| ==>
      Summaries(q)[i] == Description(q.weightedRules[i].rule) + " (for " + IntToString(q.weightedRules[i].weight) + " points)"
  {
  }

  /**
   * `length($min)` describes its bound in words; a `Size` rule without a
   * constraint splices an empty message into the same sentence.
   */
  lemma LengthDescription(min: nat)
    ensures Description(Size(Some(Range(min, None)))) == "Expecting a password length of at least " + NatToString(min) + " characters"
    ensures Description(Size(None)) == "Expecting a password length of  characters"
  {
    assert BaseDescription(Some(Range(min, None))) == "at least " + NatToString(min);
    assert BaseDescription(None) == "";
  }

  /**
   * A `Regex` description is its template with the constraint's message
   * spliced in at `%s`; a template without `%` is the description itself.
   */
  lemma RegexDescription(p: Pattern, before: string, after: string, c: Range)
    requires '%' !in before && '%' !in after
    ensures Description(Regex(p, before + "%s" + after, Some(c))) == before + c.Message() + after
    ensures Description(Regex(p, before, Some(c))) == before
    ensures Description(Regex(p, before, None)) == before
  {
    SprintfSubstitutes(before, after, c.Message());
    SprintfWithoutPercent(before, c.Message());
    SprintfWithoutPercent(before, "");
  }

  /**
   * Without an explicit required score and with positive weights, a password
   * passes exactly when every rule scores 1.
   */
  lemma DefaultRequiresEveryRule(p: PolicyData, m: Matcher, pw: Password)
    requires p.requiredScore.None?
    requires forall i :: 0 <= i < |p.weightedRules| ==> p.weightedRules[i].weight > 0
    ensures Evaluate(p, m, pw).Passed() <==>
      forall i :: 0 <= i < |p.weightedRules| ==> Score(p.weightedRules[i].rule, m, pw) == 1
  {
    var ws := p.weightedRules;
    var f := Contribution(m, pw);
    forall i | 0 <= i < |ws| ensures f(ws[i]) <= WeightOf(ws[i]) {
      assert Score(ws[i].rule, m, pw) <= 1;
    }
    ScoreIsWeightedSum(p, m, pw);
    SumByDominated(ws, f, WeightOf);
    if forall i :: 0 <= i < |ws| ==> Score(ws[i].rule, m, pw) == 1 {
      SumByPointwise(ws, ws, f, WeightOf);
    } else {
      var i :| 0 <= i < |ws| && Score(ws[i].rule, m, pw) != 1;
      assert f(ws[i]) != WeightOf(ws[i]);
    }
  }
}

=== FILE: rules.dfy ===
/**
 * The rule variants (`Rules\Base`, `Rules\Size`, `Rules\Regex` with the
 * `CharacterRange` built on it, `Rules\SubPolicy`), `WeightedRule`, the
 * state of a `Policy` as a value, and the native evaluator `Policy::test`.
 * They live in one module because a sub-policy rule scores by evaluating
 * its nested policy.
 */
module Rules {
  import opened Wrappers
  import opened Text
  import opened Sums
  import opened Constraints
  import opened CharClasses
  import opened Results

  /**
   * The regular-expression engine: the number of matches of the pattern
   * (its PHP source text) in the password, `preg_match_all`. It is a
   * parameter of every evaluation, so everything proved holds for any engine.
   */
  type Matcher = (string, Password) -> nat

  /** The patterns the rules carry, kept apart by who builds them. */
  datatype Pattern =
    | Bracket(chars: string)      // `/[chars]/`: contains (CharacterRange)
    | Leading(chars: string)      // `/^[chars]/`: startsWith
    | Trailing(chars: string)     // `/[chars]$/`: endsWith
    | Verbatim(regex: string)     // a caller's regex: match, notMatch, new Regex
  {
    /** The PHP regex source text of the pattern. */
    function Text(): string
    {
      match this
      case Bracket(c) => "/[" + c + "]/"
      case Leading(c) => "/^[" + c + "]/"
      case Trailing(c) => "/[" + c + "]$/"
      case Verbatim(r) => r
    }
  }

  /**
   * The match count: a bracket over one of the seven class fragments counts
   * the bytes in the class; every other pattern is left to the engine. The
   * engine is not required to agree with that count on the same regex text
   * reached another way (`Verbatim("/[a-z]/")` is counted by `m`,
   * `Bracket("a-z")` byte by byte), so properties of a caller's regex hold
   * for every engine, consistent or not.
   */
  function CountMatches(m: Matcher, p: Pattern, pw: Password): nat
  {
    if p.Bracket? && ClassOfFragment(p.chars).Some? then CountIn(ClassOfFragment(p.chars).value, pw)
    else m(p.Text(), pw)
  }

  /** `Base::testConstraint`: without a constraint any non-zero count passes. */
  predicate TestConstraint(c: Option<Range>, n: nat)
  {
    match c
    case None => n != 0
    case Some(range) => range.Check(n)
  }

  /** `Base::getDescription`: the constraint's message, or '' without one. */
  function BaseDescription(c: Option<Range>): (d: string)
    ensures d == "" <==> c.None?
    ensures '%' !in d
  {
    match c
    case None => ""
    case Some(range) => range.Message()
  }

  /** A rule. `Size` and `Regex` extend `Base` and accept constraints. */
  datatype Rule =
    | Size(constraint: Option<Range>)
    | Regex(pattern: Pattern, template: string, constraint: Option<Range>)
    | SubPolicy(policy: PolicyData)
  {
    /** `instanceof AcceptsConstraints`: `SubPolicy` implements only `Rule`. */
    predicate AcceptsConstraints()
    {
      !SubPolicy?
    }

    /** `Base::setConstraint`: the rule with its constraint replaced. */
    function WithConstraint(c: Range): (r: Rule)
      requires AcceptsConstraints()
      ensures r.AcceptsConstraints() && r.constraint == Some(c)
      ensures Size? ==> r.Size?
      ensures Regex? ==> r.Regex? && r.pattern == pattern && r.template == template
    {
      match this
      case Size(_) => Size(Some(c))
      case Regex(p, t, _) => Regex(p, t, Some(c))
    }
  }

  /** `WeightedRule`: a rule and the weight its binary score is multiplied by. */
  datatype WeightedRule = WeightedRule(rule: Rule, weight: int)

  /** The state of a `Policy`: its weighted rules in insertion order and the explicit required score. */
  datatype PolicyData = PolicyData(weightedRules: seq<WeightedRule>, requiredScore: Option<int>)

  function WeightOf(w: WeightedRule): int
  {
    w.weight
  }

  /** The sum of all weights: the default required score. */
  function TotalWeight(p: PolicyData): int
  {
    SumBy(p.weightedRules, WeightOf)
  }

  /** `Policy::getRequiredScore`: the explicit value, else the sum of the current weights. */
  function RequiredScore(p: PolicyData): int
  {
    match p.requiredScore
    case Some(s) => s
    case None => TotalWeight(p)
  }

  /**
   * `score($password)` of each variant: `Size` tests the byte length,
   * `Regex` the match count, `SubPolicy` whether the nested policy passes.
   */
  function Score(r: Rule, m: Matcher, pw: Password): (s: int)
    ensures s == 0 || s == 1
    decreases r
  {
    match r
    case Size(c) => if TestConstraint(c, |pw|) then 1 else 0
    case Regex(p, _, c) => if TestConstraint(c, CountMatches(m, p, pw)) then 1 else 0
    case SubPolicy(q) => if Evaluate(q, m, pw).Passed() then 1 else 0
  }

  /** `getDescription()` of each variant. */
  function Description(r: Rule): string
    decreases r
  {
    match r
    case Size(c) => "Expecting a password length of " + BaseDescription(c) + " characters"
    case Regex(_, t, c) => Sprintf(t, BaseDescription(c))
    case SubPolicy(q) =>
      var required := RequiredScore(q);
      if required <= 0 then "The password will always be accepted."
      else
        "The password must receive " + IntToString(required) + " points via the rules ["
        + Join(", ", Summaries(q)) + "]"
  }

  /** One line per nested rule of a sub-policy description, in insertion order. */
  function Summaries(q: PolicyData): seq<string>
    decreases q
  {
    seq(|q.weightedRules|, i requires 0 <= i < |q.weightedRules| => Summary(q.weightedRules[i]))
  }

  /** `"$desc (for $weight points)"`. */
  function Summary(w: WeightedRule): string
    decreases w
  {
    Description(w.rule) + " (for " + IntToString(w.weight) + " points)"
  }

  /** A weighted rule's contribution to the total score, as a function of the rule. */
  function Contribution(m: Matcher, pw: Password): WeightedRule -> int
  {
    (w: WeightedRule) => Score(w.rule, m, pw) * w.weight
  }

  /** The message `test` records for one weighted rule. */
  function MessageFor(w: WeightedRule, m: Matcher, pw: Password): Message
    decreases w
  {
    var s := Score(w.rule, m, pw);
    Message(s, s * w.weight, Description(w.rule))
  }

  /** `Policy::test`: one message per rule, their weighted total, and the required score. */
  function Evaluate(p: PolicyData, m: Matcher, pw: Password): (r: Result)
    ensures |r.messages| == |p.weightedRules|
    ensures r.requiredScore == RequiredScore(p)
    decreases p
  {
    var messages := seq(|p.weightedRules|, i requires 0 <= i < |p.weightedRules| => MessageFor(p.weightedRules[i], m, pw));
    Result(TotalOf(messages), RequiredScore(p), messages)
  }
}

=== FILE: sums.dfy ===
/** Sums over sequences, used for total weights and total scores. */
module Sums {

  /** The sum of `f` over `s`, accumulated left to right as the PHP loops do. */
  function SumBy<T>(s: seq<T>, f: T -> int): int
  {
    if s == [] then 0 else SumBy(s[..|s| - 1], f) + f(s[|s| - 1])
  }

  lemma {:induction false} SumByAppend<T>(s: seq<T>, t: seq<T>, f: T -> int)
    ensures SumBy(s + t, f) == SumBy(s, f) + SumBy(t, f)
    decreases |t|
  {
    if t == [] {
      assert s + t == s;
    } else {
      var n := |t| - 1;
      assert (s + t)[..|s + t| - 1] == s + t[..n];
      SumByAppend(s, t[..n], f);
    }
  }

  /** Two sequences that agree pointwise under `f` and `g` have equal sums. */
  lemma {:induction false} SumByPointwise<T, U>(s: seq<T>, t: seq<U>, f: T -> int, g: U -> int)
    requires |s| == |t|
    requires forall i :: 0 <= i < |s| ==> f(s[i]) == g(t[i])
    ensures SumBy(s, f) == SumBy(t, g)
    decreases |s|
  {
    if s != [] {
      SumByPointwise(s[..|s| - 1], t[..|t| - 1], f, g);
    }
  }

  /** A one-element sequence sums to its term. */
  lemma SumBySingleton<T>(x: T, f: T -> int)
    ensures SumBy([x], f) == f(x)
  {
    assert [x][..0] == [];
  }

  /** Removing the element at `j` takes its term out of the sum. */
  lemma SumByRemove<T>(t: seq<T>, j: nat, f: T -> int)
    requires j < |t|
    ensures SumBy(t, f) == SumBy(t[..j] + t[j + 1..], f) + f(t[j])
  {
    var before, x, after := t[..j], t[j], t[j + 1..];
    assert t == before + ([x] + after);
    SumByAppend(before, [x] + after, f);
    SumByAppend([x], after, f);
    SumByAppend(before, after, f);
    SumBySingleton(x, f);
  }

  /** Removing the element at `j` removes one occurrence of it from the multiset. */
  lemma MultisetRemove<T>(t: seq<T>, j: nat)
    requires j < |t|
    ensures multiset(t[..j] + t[j + 1..]) == multiset(t) - multiset{t[j]}
  {
    assert t == t[..j] + [t[j]] + t[j + 1..];
  }

  /** Summation does not depend on order: a permutation has the same sum. */
  lemma {:induction false} SumByPermutation<T>(s: seq<T>, t: seq<T>, f: T -> int)
    requires multiset(s) == multiset(t)
    ensures SumBy(s, f) == SumBy(t, f)
    decreases |s|
  {
    if s == [] {
      assert |t| == |multiset(t)| == 0;
    } else {
      var n := |s| - 1;
      var x := s[n];
      assert x in multiset(t) by { assert x in multiset(s); }
      var j :| 0 <= j < |t| && t[j] == x;
      MultisetRemove(s, n);
      MultisetRemove(t, j);
      assert s[..n] + s[n + 1..] == s[..n];
      SumByPermutation(s[..n], t[..j] + t[j + 1..], f);
      SumByRemove(t, j, f);
    }
  }

  /**
   * A sum of terms each at most the matching term of another sum is at most
   * that sum, and reaches it only when every term does.
   */
  lemma {:induction false} SumByDominated<T>(s: seq<T>, f: T -> int, g: T -> int)
    requires forall i :: 0 <= i < |s| ==> f(s[i]) <= g(s[i])
    ensures SumBy(s, f) <= SumBy(s, g)
    ensures SumBy(s, f) == SumBy(s, g) ==> forall i :: 0 <= i < |s| ==> f(s[i]) == g(s[i])
    decreases |s|
  {
    if s != [] {
      var n := |s| - 1;
      SumByDominated(s[..n], f, g);
      if SumBy(s, f) == SumBy(s, g) {
        forall i | 0 <= i < |s| ensures f(s[i]) == g(s[i]) {
          if i < n {
            assert s[..n][i] == s[i];
          }
        }
      }
    }
  }

  /** A sum of non-negative terms is non-negative. */
  lemma {:induction false} SumByNonNegative<T>(s: seq<T>, f: T -> int)
    requires forall i :: 0 <= i < |s| ==> f(s[i]) >= 0
    ensures SumBy(s, f) >= 0
    decreases |s|
  {
    if s != [] {
      SumByNonNegative(s[..|s| - 1], f);
    }
  }
}

=== FILE: text.dfy ===
/**
 * The few string operations of PHP that the policy uses: integer
 * interpolation, `implode`, `sprintf` with one `%s` argument, `strtolower`
 * and PHP's truthiness of strings.
 */
module Text {

  function DigitChar(d: nat): char
    requires d < 10
  {
    "0123456789"[d]
  }

  /** The number a string of decimal digits denotes, read left to right. */
  function DecimalValue(s: string): int
    decreases |s|
  {
    if s == [] then 0
    else 10 * DecimalValue(s[..|s| - 1]) + (s[|s| - 1] as int - '0' as int)
  }

  /**
   * Decimal rendering of a natural number, as `"$n"` interpolates it: digits
   * only, no leading zero, and reading them back gives `n`.
   */
  function NatToString(n: nat): (r: string)
    ensures r != []
    ensures forall i :: 0 <= i < |r| ==> '0' <= r[i] <= '9'
    ensures n > 0 ==> r[0] != '0'
    ensures DecimalValue(r) == n
    decreases n
  {
    var d := DigitChar(n % 10);
    assert d as int - '0' as int == n % 10;
    if n < 10 then [d]
    else
      var prefix := NatToString(n / 10);
      assert (prefix + [d])[..|prefix|] == prefix;
      prefix + [d]
  }

  /** Decimal rendering of an integer, with a leading '-' when negative. */
  function IntToString(i: int): string
  {
    if i < 0 then "-" + NatToString(-i) else NatToString(i)
  }

  /** `implode($sep, $parts)`. */
  function Join(sep: string, parts: seq<string>): string
    decreases |parts|
  {
    if parts == [] then ""
    else if |parts| == 1 then parts[0]
    else parts[0] + sep + Join(sep, parts[1..])
  }

  /** `implode` adds one more part after a separator. */
  lemma {:induction false} JoinSnoc(sep: string, parts: seq<string>, part: string)
    requires parts != []
    ensures Join(sep, parts + [part]) == Join(sep, parts) + sep + part
    decreases |parts|
  {
    if |parts| > 1 {
      assert (parts + [part])[1..] == parts[1..] + [part];
      JoinSnoc(sep, parts[1..], part);
    }
  }

  /** PHP's boolean reading of a string: only "" and "0" are false. */
  predicate Truthy(s: string)
  {
    s != "" && s != "0"
  }

  predicate IsUpper(c: char) { 'A' <= c <= 'Z' }

  predicate IsLower(c: char) { 'a' <= c <= 'z' }

  function LowerChar(c: char): char
  {
    if IsUpper(c) then (c as int + 32) as char else c
  }

  function UpperChar(c: char): char
  {
    if IsLower(c) then (c as int - 32) as char else c
  }

  /**
   * `strtolower` on ASCII letters: no upper-case letter is left, every other
   * character is kept, and each upper-case letter becomes the lower-case
   * letter it capitalises.
   */
  function ToLower(s: string): (r: string)
    ensures |r| == |s|
    ensures forall i :: 0 <= i < |s| ==> !IsUpper(r[i])
    ensures forall i :: 0 <= i < |s| && !IsUpper(s[i]) ==> r[i] == s[i]
    ensures forall i :: 0 <= i < |s| && IsUpper(s[i]) ==> IsLower(r[i]) && UpperChar(r[i]) == s[i]
  {
    seq(|s|, i requires 0 <= i < |s| => LowerChar(s[i]))
  }

  /**
   * `sprintf($template, $arg)`: the first `%s` is replaced by `arg`, `%%`
   * becomes `%`, and every other character is kept.
   */
  function Sprintf(template: string, arg: string): string
  {
    Format(template, arg, false)
  }

  function Format(t: string, arg: string, used: bool): string
    decreases |t|
  {
    if t == [] then ""
    else if t[0] == '%' && |t| >= 2 && t[1] == '%' then "%" + Format(t[2..], arg, used)
    else if t[0] == '%' && |t| >= 2 && t[1] == 's' && !used then arg + Format(t[2..], arg, true)
    else [t[0]] + Format(t[1..], arg, used)
  }

  /** A template without '%' is printed unchanged, whatever the argument. */
  lemma {:induction false} FormatWithoutPercent(t: string, arg: string, used: bool)
    requires '%' !in t
    ensures Format(t, arg, used) == t
    decreases |t|
  {
    if t != [] {
      assert t[0] != '%' by { assert t[0] in t; }
      assert forall c :: c in t[1..] ==> c in t;
      FormatWithoutPercent(t[1..], arg, used);
      assert t == [t[0]] + t[1..];
    }
  }

  lemma SprintfWithoutPercent(t: string, arg: string)
    requires '%' !in t
    ensures Sprintf(t, arg) == t
  {
    FormatWithoutPercent(t, arg, false);
  }

  /** One `%s` between `%`-free text is replaced by the argument. */
  lemma SprintfSubstitutes(before: string, after: string, arg: string)
    requires '%' !in before && '%' !in after
    ensures Sprintf(before + "%s" + after, arg) == before + arg + after
  {
    SprintfPrefix(before, "%s" + after, arg);
    assert ("%s" + after)[2..] == after;
    FormatWithoutPercent(after, arg, true);
    assert before + "%s" + after == before + ("%s" + after);
  }

  /** A `%`-free prefix is copied through unchanged. */
  lemma {:induction false} SprintfPrefix(before: string, rest: string, arg: string)
    requires '%' !in before
    ensures Format(before + rest, arg, false) == before + Format(rest, arg, false)
    decreases |before|
  {
    if before != [] {
      var t := before + rest;
      assert t[0] == before[0] != '%' by { assert before[0] in before; }
      assert forall c :: c in before[1..] ==> c in before;
      assert t[1..] == before[1..] + rest;
      assert Format(t, arg, false) == [t[0]] + Format(t[1..], arg, false);
      SprintfPrefix(before[1..], rest, arg);
      assert before == [before[0]] + before[1..];
    } else {
      assert before + rest == rest;
    }
  }
}

=== FILE: wrappers.dfy ===
/** Optional values, used wherever the PHP code uses `null` for "absent". */
module Wrappers {

  datatype Option<+T> = None | Some(value: T)
}
